=== FILE: README.md ===
# RD team and expert consultant agents, and the action execution client, in Dafny

This project models the decision logic of two OpenHands agents and of the runtime client they run through.

- **`RDTeamAgent`** runs a product workflow in phases (requirements gathering, planning, architecture, development, testing, validation). It works out the current phase from phase markers in the conversation or, failing that, from the task records in its backlog. Before deciding anything it drains a FIFO queue of pending actions.
- **`BacklogTool`** keeps one JSON record per task in a backlog directory. Each file is named after the task's title with spaces, slashes and backslashes made `_`.
- **`ExpertConsultantAgent`** chooses the tools it offers the LLM from its configuration flags. Its `step` drains the same kind of queue, then consults the condenser and the LLM.
- **`GenerateMermaidDiagramAction`** wraps text in a Markdown `mermaid` code block.
- **`DocumentationValidatorAction`** is a stub that reports every documentation set as complete.
- **`ActionExecutionClient`** works in three areas:
  - it guards and times the actions it sends to the action execution server, and retries a request that fails with a protocol error;
  - it reconciles the MCP stdio servers it has told the server about;
  - it caches the VS Code connection token and closes its session once.

State that the source changes in place is modelled by classes:

- the backlog directory (`Backlog.BacklogStore`, a map from file stem to file contents);
- the agents' queues (`RDTeam.RDTeamAgent`, `ExpertConsultant.ExpertConsultantAgent`);
- the client (`ActionExecution.ActionExecutionClient`);
- an action's timeout fields (`ActionExecution.RuntimeAction`).

Everything the source only computes is a function, and the properties are lemmas.

Collaborators outside these files become method parameters: the LLM's reply, the condenser's result, codeact's `response_to_actions`, and the server's answers. The network is the client's log of requests sent.

Python's string operations are written out in `Text`: `lower`, `strip`, `in`, `split`, `replace`, `rstrip` and `str` of a number. Python's `<` on strings is written out in `McpServers`.

The model follows the code.

## Model

| member | source | states |
|---|---|---|
| Text.Lower | openhands/agenthub/rd_team_agent/rd_team_agent.py:153 | `str.lower` keeps the length, turns each ASCII capital into its small letter, and changes no other character |
| Text.Strip | openhands/agenthub/rd_team_agent/rd_team_agent.py:157 | the result is the input with a run of leading and a run of trailing Python whitespace cut off, and neither starts nor ends with whitespace; empty for an all-whitespace input |
| Text.StripIdempotent | openhands/agenthub/rd_team_agent/rd_team_agent.py:157 | stripping twice is stripping once |
| Text.Find | openhands/agenthub/rd_team_agent/rd_team_agent.py:154 | a match is found exactly when `pat in s`, and it is the first occurrence |
| Text.SecondPart | openhands/agenthub/rd_team_agent/rd_team_agent.py:155-157 | `s.split(sep)[1]` starts right after the first `sep`, runs up to the next `sep` or the end of `s`, and no `sep` starts inside it, so it holds no `sep` |
| Text.CutAt | openhands/agenthub/rd_team_agent/rd_team_agent.py:157 | `s.split(sep)[0]` is the prefix before the first `sep`: its length is the index of that `sep`, and no `sep` starts inside it; all of `s` when there is none |
| Text.Replace | openhands/agenthub/rd_team_agent/tools/backlog.py:43 | `replace` of one character changes exactly the occurrences of that character |
| Text.RStripChar | openhands/runtime/impl/action_execution/action_execution_client.py:441 | `rstrip('/')` is the longest prefix not ending in the character, and only that character was removed |
| Events.FirstIndexWhere | openhands/agenthub/expert_consultant_agent/expert_consultant_agent.py:211-214 | the forward scan with an early break finds the first matching event, or reports that none matches |
| Events.LastIndexWhere | openhands/agenthub/rd_team_agent/rd_team_agent.py:151-157 | the scan over `reversed(history)` finds the last matching event, or reports that none matches |
| Backlog.SafeTitle | openhands/agenthub/rd_team_agent/tools/backlog.py:43 | the file stem has the title's length, contains no space, slash or backslash, and keeps every other character |
| Backlog.SafeTitleCollision | openhands/agenthub/rd_team_agent/tools/backlog.py:43-46 | two titles share a file exactly when they differ only in spaces, slashes, backslashes and underscores |
| Backlog.SafeTitleIdempotent | openhands/agenthub/rd_team_agent/tools/backlog.py:64 | sanitising a sanitised title changes nothing |
| Backlog.NewTask | openhands/agenthub/rd_team_agent/tools/backlog.py:33-40 | the record keeps the title, description, phase and status, has creator `RDTeamAgent`, and criteria `''` when none are given |
| Backlog.BacklogStore.constructor | openhands/agenthub/rd_team_agent/tools/backlog.py:30-31 | the backlog directory as found: whether it exists and its files, with no files when it does not exist |
| Backlog.BacklogStore.EnsureDirectory | openhands/agenthub/rd_team_agent/tools/backlog.py:31 | the directory exists afterwards and no file changes |
| Backlog.BacklogStore.CreateBacklogTask | openhands/agenthub/rd_team_agent/tools/backlog.py:10-48 | writes the record (criteria `''` when absent, creator `RDTeamAgent`) under the sanitised title, overwriting any earlier one, and leaves every other file as it was |
| Backlog.BacklogStore.UpdateTaskStatus | openhands/agenthub/rd_team_agent/tools/backlog.py:51-77 | a missing file gives False and no change; an undecodable file raises `JSONDecodeError` with no change; otherwise True, and only that record's `status` changes |
| Backlog.BacklogStore.GetBacklogTasks | openhands/agenthub/rd_team_agent/tools/backlog.py:80-101 | nothing without a directory; otherwise exactly the decodable records, one per file, each from a distinct file |
| Backlog.BacklogStore.GetTasksByPhase | openhands/agenthub/rd_team_agent/tools/backlog.py:104-130 | exactly the decodable records whose phase equals the given one ignoring case, one per file, all of them among the backlog's records |
| RDTeam.MarkerPhase | openhands/agenthub/rd_team_agent/rd_team_agent.py:153-157 | the phase a marker names is lower-case, has no newline, no surrounding whitespace and no second `phase:` |
| RDTeam.LastMarker | openhands/agenthub/rd_team_agent/rd_team_agent.py:151-157 | the backward scan finds a marker exactly when some message of the history carries `phase:` |
| RDTeam.CurrentPhase | openhands/agenthub/rd_team_agent/rd_team_agent.py:148-191 | without a marker, the phase is one of the six default phases; a marker's phase is lower-case, trimmed and a single line |
| RDTeam.MarkerWins | openhands/agenthub/rd_team_agent/rd_team_agent.py:151-157 | the latest marker message decides the phase, whatever the backlog holds |
| RDTeam.BacklogPhaseIsFirstRanked | openhands/agenthub/rd_team_agent/rd_team_agent.py:170-191 | without a marker, the phase is the first of validation, testing, development, architecture, planning that some task's phase contains ignoring case; it is `requirements_gathering` exactly when the backlog is empty or none does |
| RDTeam.FirstRankedStops | openhands/agenthub/rd_team_agent/rd_team_agent.py:176-187 | the chain of `elif any(...)` tests stops at a phase exactly when some task's phase contains it and none of the phases tested before it |
| RDTeam.FirstRankedMonotone | openhands/agenthub/rd_team_agent/rd_team_agent.py:176-187 | testing a larger set of tasks stops the chain no later |
| RDTeam.FirstRanked | openhands/agenthub/rd_team_agent/rd_team_agent.py:176-187 | the chain stops at a phase some task's phase contains, after passing only phases none contains |
| RDTeam.BacklogPhase | openhands/agenthub/rd_team_agent/rd_team_agent.py:176-191 | the phase inferred from the backlog is one of the six default phases, and `requirements_gathering` for an empty backlog |
| RDTeam.RankOfBacklogPhase | openhands/agenthub/rd_team_agent/rd_team_agent.py:176-191 | the phase the chain returns sits where the chain stopped, and an empty backlog or no match ranks after every searched phase |
| RDTeam.BacklogPhaseMonotone | openhands/agenthub/rd_team_agent/rd_team_agent.py:176-191 | adding records never moves the inferred phase back in the search order |
| RDTeam.InitialMessage | openhands/agenthub/rd_team_agent/rd_team_agent.py:193-208 | the first message of the history, whatever its source, and `ValueError` exactly when there is none |
| RDTeam.UserMessages | openhands/agenthub/rd_team_agent/rd_team_agent.py:239-243 | a string is in the result exactly when it is the content of some user message of the history; at most one entry per event; empty exactly when the history holds none |
| RDTeam.LastUserMessageIsLatest | openhands/agenthub/rd_team_agent/rd_team_agent.py:256 | `user_messages[-1]` is the content of the latest user message |
| RDTeam.ResponseAction | openhands/agenthub/rd_team_agent/rd_team_agent.py:383-409 | a reply naming `complete`, `finished`, `done` or `/exit` (ignoring case, `HasFinishKeyword`) becomes the finish action with final thought `Task completed` and `task_completed` TRUE; any other reply becomes an agent message with the content unchanged |
| RDTeam.RDTeamAgent.constructor | openhands/agenthub/rd_team_agent/rd_team_agent.py:49-64 | the queue starts empty |
| RDTeam.RDTeamAgent.Reset | openhands/agenthub/rd_team_agent/rd_team_agent.py:75-79 | only the queue is cleared |
| RDTeam.RDTeamAgent.Step | openhands/agenthub/rd_team_agent/rd_team_agent.py:81-146 | a non-empty queue yields its front and nothing else changes; `/exit` (`IsExitRequest`: the last user message, stripped, is `/exit`) finishes with TRUE; the requirements phase is handed to the gathering routine; otherwise a missing initial message raises `ValueError`, or the LLM reply becomes one action with the queue left empty |
| RDTeam.RDTeamAgent.ReadPhase | openhands/agenthub/rd_team_agent/rd_team_agent.py:148-191 | the phase `_get_current_phase` infers from the history and the records the backlog holds |
| RDTeam.RDTeamAgent.HandleRequirementsGathering | openhands/agenthub/rd_team_agent/rd_team_agent.py:210-309 | with a requirements task it advances to planning; otherwise it writes the "Gather Requirements" record and queues a question, or (when the last user message mentions requirements, the negation of `NeedsRequirements`) a thank-you and a finish action, returning the queue's front |
| RDTeam.RDTeamAgent.RecordRequirementsTask | openhands/agenthub/rd_team_agent/rd_team_agent.py:247-252 | writes the "Gather Requirements" record of the requirements phase and changes no other file |
| RDTeam.RDTeamAgent.QueueAndPop | openhands/agenthub/rd_team_agent/rd_team_agent.py:258-266 | `extend` then `popleft`: the returned action followed by the new queue is the old queue followed by the added actions |
| RDTeam.RDTeamAgent.AdvanceToPlanningPhase | openhands/agenthub/rd_team_agent/rd_team_agent.py:311-339 | writes the "Gather Requirements" and "Create Project Plan" records and returns the planning announcement through the queue |
| RDTeam.RDTeamAgent.ResponseToActions | openhands/agenthub/rd_team_agent/rd_team_agent.py:383-409 | one action is queued and the queue's front returned, so the queue keeps its length |
| ExpertConsultant.Append | openhands/agenthub/expert_consultant_agent/expert_consultant_agent.py:121-135 | `if flag: tools.append(t)` adds exactly `t`, and only when the flag is set |
| ExpertConsultant.FlagTool | openhands/agenthub/expert_consultant_agent/expert_consultant_agent.py:121-135 | the `k`-th single-tool `if` appends a tool of slot `k`; the command tool carries the short-description choice |
| ExpertConsultant.UseShortToolDescription | openhands/agenthub/expert_consultant_agent/expert_consultant_agent.py:111-117 | short descriptions exactly when there is an LLM whose model name contains `gpt-`, `o3`, `o1` or `o4` |
| ExpertConsultant.FlagTools | openhands/agenthub/expert_consultant_agent/expert_consultant_agent.py:120-135 | the first `n` single-tool `if`s add at most `n` tools |
| ExpertConsultant.EditorTools | openhands/agenthub/expert_consultant_agent/expert_consultant_agent.py:136-143 | at most one editor; none exactly when both editor flags are off; the LLM editor exactly when its flag is set |
| ExpertConsultant.FlagToolsOrdered | openhands/agenthub/expert_consultant_agent/expert_consultant_agent.py:120-135 | the single-flag tools come in flag order, each at most once |
| ExpertConsultant.FlagToolsMembership | openhands/agenthub/expert_consultant_agent/expert_consultant_agent.py:120-135 | the tool of the `k`-th single-tool `if` is in the list exactly when its flag is set (`FlagEnabled`: the config flag, and for the browser also a platform other than `win32`) |
| ExpertConsultant.FlagToolsShape | openhands/agenthub/expert_consultant_agent/expert_consultant_agent.py:120-135 | the single-flag `if`s add no editor, and the command tool they add carries the short-description choice |
| ExpertConsultant.GetTools | openhands/agenthub/expert_consultant_agent/expert_consultant_agent.py:107-149 | the `GenerateMermaidDiagramAction` and `DocumentationValidatorAction` classes are always the last two entries, in that order |
| ExpertConsultant.TailOrdered | openhands/agenthub/expert_consultant_agent/expert_consultant_agent.py:136-147 | the editor, then the two documentation tools, keep the list in slot order |
| ExpertConsultant.GetToolsOrdered | openhands/agenthub/expert_consultant_agent/expert_consultant_agent.py:120-149 | tools appear in flag order (cmd, think, finish, condensation, browser, jupyter, editor, mermaid, validator), each at most once, and at most one editor is offered |
| ExpertConsultant.FlagToolOffered | openhands/agenthub/expert_consultant_agent/expert_consultant_agent.py:121-135 | each single-flag tool is offered exactly when its flag is set (`FlagEnabled`); the browser never on `win32` |
| ExpertConsultant.EditorOffered | openhands/agenthub/expert_consultant_agent/expert_consultant_agent.py:136-143 | the LLM editor is offered exactly when enabled, and the str_replace editor only when the LLM editor is not; command and editor tools carry the model's short-description choice |
| ExpertConsultant.GetToolsMembership | openhands/agenthub/expert_consultant_agent/expert_consultant_agent.py:111-143 | which tools are offered, flag by flag, with short descriptions exactly when the LLM's model name contains `gpt-`, `o3`, `o1` or `o4` |
| ExpertConsultant.InitialUserMessage | openhands/agenthub/expert_consultant_agent/expert_consultant_agent.py:208-226 | the first message whose source is the user, and `ValueError` exactly when there is none |
| ExpertConsultant.ExpertConsultantAgent.constructor | openhands/agenthub/expert_consultant_agent/expert_consultant_agent.py:74-88 | the queue starts empty and the tools are those `_get_tools` chooses |
| ExpertConsultant.ExpertConsultantAgent.Reset | openhands/agenthub/expert_consultant_agent/expert_consultant_agent.py:151-155 | only the queue is cleared |
| ExpertConsultant.ExpertConsultantAgent.Step | openhands/agenthub/expert_consultant_agent/expert_consultant_agent.py:157-206 | a non-empty queue yields its front only; `/exit` (`IsExitRequest`) finishes; a condensation is returned as it is; a missing user message raises `ValueError`; otherwise all LLM actions are queued in order and the first popped, and an empty list raises `IndexError` |
| McpServers.NewServers | openhands/runtime/impl/action_execution/action_execution_client.py:379-383 | the new servers are exactly the current servers not in the cached list |
| McpServers.NoNewServersIff | openhands/runtime/impl/action_execution/action_execution_client.py:379-391 | an update is due exactly when some current server is not cached |
| McpServers.CombineServers | openhands/runtime/impl/action_execution/action_execution_client.py:394-397 | the combined list starts with the current list, holds exactly the current and cached servers, and adds no duplicate and no current server after it |
| McpServers.UpdateSettles | openhands/runtime/impl/action_execution/action_execution_client.py:391-425 | once the cache holds the union, the same servers call for no further update |
| McpServers.NameLessAsymmetric | openhands/runtime/impl/action_execution/action_execution_client.py:402 | Python's string order on names is asymmetric |
| McpServers.InsertByName | openhands/runtime/impl/action_execution/action_execution_client.py:402 | inserting into a list sorted by name keeps it sorted and adds exactly that server |
| McpServers.SortByName | openhands/runtime/impl/action_execution/action_execution_client.py:399-402 | the payload is sorted by name and is a permutation of the combined list |
| McpServers.SortByNameSameServers | openhands/runtime/impl/action_execution/action_execution_client.py:399-402 | the payload holds exactly the combined servers |
| McpServers.SortByNameKeepsSorted | openhands/runtime/impl/action_execution/action_execution_client.py:402 | a list already sorted by name is left as it is |
| McpServers.SortByNameIdempotent | openhands/runtime/impl/action_execution/action_execution_client.py:402 | sorting twice is sorting once |
| McpServers.McpSseAsWritten | openhands/runtime/impl/action_execution/action_execution_client.py:369-446 | as written, the returned SSE list and the configuration's list are one list, which becomes the configured list followed by the runtime's entry whenever the cache is non-empty |
| McpServers.McpSseAsWrittenDuplicates | openhands/runtime/impl/action_execution/action_execution_client.py:369-446 | as written, the second call returns the runtime's entry twice |
| McpServers.McpSse | openhands/runtime/impl/action_execution/action_execution_client.py:437-446 | the returned SSE list is the configured one followed by exactly one runtime entry when the cache is non-empty, and the configured one otherwise |
| McpServers.McpSseSecondCallDiffers | openhands/runtime/impl/action_execution/action_execution_client.py:369-446 | the first call as written agrees with the corrected list, and the second does not |
| ActionExecution.Guard | openhands/runtime/impl/action_execution/action_execution_client.py:285-309 | the request goes out exactly when the action is runnable, not awaiting confirmation, of a known type, handled, and not rejected; `NullObservation('')` exactly for a non-runnable non-think action or one awaiting confirmation; a thought is logged exactly for a non-runnable think action; only an unknown type raises (`ValueError`); a known type without a handler gives an `ErrorObservation` with id `AGENT_ERROR$BAD_ACTION`; the rejection is reported only after the type checks pass |
| ActionExecution.TypeChecksBeforeRejection | openhands/runtime/impl/action_execution/action_execution_client.py:296-309 | a missing handler decides before a user rejection does |
| ActionExecution.IsRetryableError | openhands/runtime/impl/action_execution/action_execution_client.py:54-57 | an error is retried exactly when it is an httpx or httpcore `RemoteProtocolError`, so never a timeout; `RetryFrom` retries by it |
| ActionExecution.RetryFrom | openhands/runtime/impl/action_execution/action_execution_client.py:54-57 | from attempt `n` on, the decorator retries exactly the failures `_is_retryable_error` accepts, and stops at five attempts or once an exit is requested |
| ActionExecution.SendWithRetry | openhands/runtime/impl/action_execution/action_execution_client.py:54-57 | every attempt before the last is a retryable failure; the last gives the response, re-raises an error that is not retryable, or gives up after five attempts (one once an exit is requested) |
| ActionExecution.RetryStopsAtFirstOther | openhands/runtime/impl/action_execution/action_execution_client.py:54-57 | the number of attempts is the position of the first attempt that is not a retryable failure, at most five |
| ActionExecution.TimeoutReachesCaller | openhands/runtime/impl/action_execution/action_execution_client.py:54-57 | a client timeout is never retried: the caller gets it from the attempt that raised it |
| ActionExecution.RuntimeAction.constructor | openhands/runtime/impl/action_execution/action_execution_client.py:270-282 | an action with its class, type, id, runnable flag, confirmation state and timeout fields as given |
| ActionExecution.ActionExecutionClient.constructor | openhands/runtime/impl/action_execution/action_execution_client.py:80-84 | not closed, no cached token, no cached stdio servers |
| ActionExecution.ActionExecutionClient.RuntimeSseServer | openhands/runtime/impl/action_execution/action_execution_client.py:439-443 | the runtime's SSE entry carries the session API key, and its URL is the server URL without its trailing slashes followed by `/mcp/sse` |
| ActionExecution.ActionExecutionClient.SendActionForExecution | openhands/runtime/impl/action_execution/action_execution_client.py:270-334 | an LLM-based edit goes to `llm_based_edit` untouched; a blocking command without a timeout raises `RuntimeError`; any other missing timeout becomes the sandbox default, non-blocking; a guard that applies decides with no request; otherwise exactly one request with timeout + 5, whose answer gets the action's id as cause, and a client timeout raises `AgentRuntimeTimeoutError` |
| ActionExecution.ActionExecutionClient.ExecuteGuarded | openhands/runtime/impl/action_execution/action_execution_client.py:284-334 | a guard that applies decides with no request; otherwise exactly one `execute_action` request with timeout + 5, whose answer gets the action's id as cause, and a client timeout raises `AgentRuntimeTimeoutError` naming the timeout; no other field of the client changes |
| Text.NatToString | openhands/runtime/impl/action_execution/action_execution_client.py:330 | `str(n)` inside the timeout message: a non-empty string of decimal digits, with no leading zero unless `n` is 0, whose decimal value (`DigitsValue`) is `n` |
| Text.NatToStringOfDigits | openhands/runtime/impl/action_execution/action_execution_client.py:330 | printing the value of any digit string without a leading zero gives that string back, so `str` is onto those strings |
| ActionExecution.ActionExecutionClient.TimeoutError | openhands/runtime/impl/action_execution/action_execution_client.py:328-331 | an `AgentRuntimeTimeoutError` whose message ends with the requested timeout and `s` |
| ActionExecution.ActionExecutionClient.GuardedOutcome | openhands/runtime/impl/action_execution/action_execution_client.py:284-334 | the guarded part sends at most one request and keeps every earlier one |
| ActionExecution.ActionExecutionClient.GetVscodeToken | openhands/runtime/impl/action_execution/action_execution_client.py:252-268 | `''` unless VS Code is enabled and the runtime initialised; a cached token is returned without a request; otherwise one request, and a null token gives `''` and is not cached |
| ActionExecution.ActionExecutionClient.GetMcpConfig | openhands/runtime/impl/action_execution/action_execution_client.py:357-446 | on `win32` an empty config and no change; otherwise an update is sent exactly when there are new servers, its payload sorted by name and holding the union; the cache becomes the combined list only on status 200; the runtime entry is added exactly when the cache is non-empty |
| ActionExecution.ActionExecutionClient.Close | openhands/runtime/impl/action_execution/action_execution_client.py:479-485 | the session is closed by the first call only |
| Mermaid.Run | openhands/agenthub/expert_consultant_agent/tools/generate_mermaid.py:36-45 | the output is 15 characters longer than the input, opens with the 11-character fence line, closes with the 4-character fence, and holds the input verbatim between them |
| Mermaid.Contents | openhands/agenthub/expert_consultant_agent/tools/generate_mermaid.py:45 | a text is a `mermaid` block exactly when it carries both fences |
| Mermaid.ContentsOfRun | openhands/agenthub/expert_consultant_agent/tools/generate_mermaid.py:45 | dropping the fences from `run(s)` gives back `s` |
| Mermaid.RunOfContents | openhands/agenthub/expert_consultant_agent/tools/generate_mermaid.py:45 | every `mermaid` block is `run` of its contents |
| Mermaid.RunInjective | openhands/agenthub/expert_consultant_agent/tools/generate_mermaid.py:45 | different inputs give different blocks |
| ValidateDocs.Run | openhands/agenthub/expert_consultant_agent/tools/validate_docs.py:47-52 | the report has exactly the keys `status`, `broken_links`, `missing`, `warnings`; status `complete` and three empty lists |
| ValidateDocs.RunIgnoresInput | openhands/agenthub/expert_consultant_agent/tools/validate_docs.py:35-57 | the report does not depend on the input, so repeated validation gives the same report |

## Left out

- File system details of the backlog are not modelled: the fixed directory path, `os.makedirs` failures, JSON indentation and `os.listdir` order. The directory is a map from file stem to contents, and the list order is left unspecified. Files not ending in `.json` are ignored by the source and are not in the map.
- I/O errors other than JSON decoding are not modelled: an unreadable file, or a failed write. In the model a write cannot fail. So the agent's `except Exception` branches are not modelled, including the FALSE finish at openhands/agenthub/rd_team_agent/rd_team_agent.py:292-303 and the phase fallback at openhands/agenthub/rd_team_agent/rd_team_agent.py:172-174.
- Records with a missing or null `phase` are not modelled. Every record carries all six fields.
- The agent's `create_backlog_task` wrapper (openhands/agenthub/rd_team_agent/rd_team_agent.py:361-381) calls the backlog directly. Its `phase is None` branch is never taken by the agent's own calls.
- Text.Lower: does not model `str.lower` beyond the ASCII letters. Case folding of other scripts needs Unicode tables.
- These collaborators are not modelled: the LLM, prompts, `ConversationMemory`, `_get_messages`, the phase prompt added to the first message (openhands/agenthub/rd_team_agent/rd_team_agent.py:118-135), `check_tools`, the condenser, and codeact's `response_to_actions`. Their results are parameters of `Step`.
- `State.get_last_user_message` is not part of this model. `AgentState` carries its result as a given value.
- The tool schemas (`CmdRunTool`, `ThinkTool` and the rest) are only named, by the `Tool` constructors. The last two constructors, `GenerateMermaidDiagramAction` and `DocumentationValidatorAction`, are not schemas: `_get_tools` appends the two Action classes themselves (openhands/agenthub/expert_consultant_agent/expert_consultant_agent.py:145-147), and the model keeps them as they are. What the LLM layer does with a class in place of a tool schema is not part of this model.
- `ActionExecution.ActionExecutionClient.GetVscodeToken`: `vscodeEnabled` and `runtimeInitialized` are constants fixed at construction. In the source, `runtime_initialized` is a flag of the base `Runtime` class that becomes true once the runtime has started, and the client reads it afresh at each call (openhands/runtime/impl/action_execution/action_execution_client.py:253). The base `Runtime` class is not part of this model, so the model does not capture a client whose runtime becomes initialized between two calls of `GetVscodeToken`.
- The HTTP transport is not modelled:
  - the waits of the tenacity retry decorator, and a change of the exit flag during a request (`ActionExecution.SendWithRetry` reads it once, and takes the server's answer to each attempt as a parameter);
  - the link between the retry and `send_action_for_execution`, whose server answer is given directly;
  - `update_last_execution_time`;
  - the action semaphore, with actions taken as sequential;
  - `event_to_dict` and `observation_from_dict`, with the observation payload opaque;
  - transport errors of `execute_action` other than a client timeout;
  - a `response.json()` that fails.
- ActionExecution.ActionExecutionClient.GetMcpConfig: returns the corrected SSE list of the Findings row (`McpServers.McpSse`) from a configuration it leaves unchanged. It does not model the append to the configuration's own list, which the source makes on every call with a non-empty cache (`McpServers.McpSseAsWritten` does).
- `llm_based_edit` and `Event.set_hard_timeout` are not part of this model. The latter is taken to set the timeout and the `blocking` flag.
- ActionExecution.ActionExecutionClient.SendActionForExecution: timeouts are whole seconds, while the source allows floats.
- `call_tool_mcp`, `copy_to`, `copy_from`, `list_files`, `check_if_alive` and the `router_error_log` logging are not modelled. Of the MCP configuration, only the SSE and stdio lists are modelled.
- McpServers.CombineServers: the order of the cached servers appended after the current ones is not stated.
- McpServers.SortByName: stability (servers with equal names keep their order) is not stated.
- ValidateDocs.Run: the insertion order of the dictionary's keys is not modelled. The report is a map.

## Findings

| source | as written | input that shows it | evidently intended | confidence | as-written member | corrected member |
|---|---|---|---|---|---|---|
| openhands/runtime/impl/action_execution/action_execution_client.py:369-444 | `get_mcp_config` appends the runtime's SSE entry to `self.config.mcp.model_copy().sse_servers`. `model_copy()` is shallow, so that list is the configuration's own, and it keeps the entry after the call | two calls of `get_mcp_config` with a non-empty cached stdio list: the second returns the runtime's entry twice, and every later call returns one more | every call returns the configured SSE servers plus exactly one runtime entry, and the configuration is left unchanged | medium; not executed (the definition of `MCPConfig` is not part of this model; the reading depends on it being a pydantic model, whose `model_copy` is shallow by default) | McpServers.McpSseAsWrittenDuplicates | McpServers.McpSse |

=== FILE: action_execution_client.dfy ===
/**
 * `ActionExecutionClient`: the decisions the runtime client takes before and
 * around its HTTP requests to the action execution server. The network is a
 * log of the requests sent (`requests`) and the server's answers are
 * parameters of the methods.
 */
module ActionExecution {
  import opened Common
  import opened Text
  import opened McpServers

  // ---------------------------------------------------------------------------
  // Which transport errors are retried
  // ---------------------------------------------------------------------------

  /** The library an exception class comes from. */
  datatype HttpLibrary = Httpx | Httpcore | OtherLibrary

  /** The exception classes a request can raise that the client tells apart. */
  datatype ErrorKind = RemoteProtocolError | TimeoutException | OtherError

  /** An exception raised while sending a request: its class and that class's library. */
  datatype ClientError = ClientError(library: HttpLibrary, kind: ErrorKind)

  /** `isinstance(e, cls)` for the class `kind` of `library`. */
  predicate IsInstance(e: ClientError, library: HttpLibrary, kind: ErrorKind) {
    e.library == library && e.kind == kind
  }

  /** `_is_retryable_error`: the request decorator retries an exception exactly when this holds. */
  function IsRetryableError(e: ClientError): (r: bool)
    ensures r <==> e.kind == RemoteProtocolError && e.library != OtherLibrary
    ensures e.kind == TimeoutException ==> !r
  {
    IsInstance(e, Httpx, RemoteProtocolError) || IsInstance(e, Httpcore, RemoteProtocolError)
  }

  /** What one attempt of a request gives: the server's response, or a raised exception. */
  datatype Attempt = Responded(response: nat) | Raised(error: ClientError)

  /** What the decorated request gives its caller after `attempts` attempts: a response,
      the exception of an attempt that is not retried, or tenacity's `RetryError` once the
      stop condition holds after a retryable failure. */
  datatype RequestOutcome =
    | Response(response: nat, attempts: nat)
    | Reraised(error: ClientError, attempts: nat)
    | GaveUp(last: ClientError, attempts: nat)

  /** `stop_after_attempt(5)`. */
  const MaxAttempts := 5

  /** An attempt the decorator tries again, unless it must stop. */
  predicate RetriedFailure(a: Attempt) {
    a.Raised? && IsRetryableError(a.error)
  }

  /** The `@retry` decorator of `_send_action_server_request`, from attempt `n` on.
      `server(j)` is what the `j`-th attempt gives; `exitRequested` is the flag
      `stop_if_should_exit` reads. */
  function RetryFrom(server: nat -> Attempt, exitRequested: bool, n: nat): (r: RequestOutcome)
    requires 1 <= n <= MaxAttempts
    ensures n <= r.attempts <= MaxAttempts
    ensures forall j :: n <= j < r.attempts ==> RetriedFailure(server(j))
    ensures r.Response? ==> server(r.attempts) == Responded(r.response)
    ensures r.Reraised? ==> server(r.attempts) == Raised(r.error) && !IsRetryableError(r.error)
    ensures r.GaveUp? ==> server(r.attempts) == Raised(r.last) && IsRetryableError(r.last)
                          && (r.attempts == MaxAttempts || exitRequested)
    ensures exitRequested ==> r.attempts == n
    decreases MaxAttempts - n
  {
    match server(n)
    case Responded(response) => Response(response, n)
    case Raised(e) =>
      if !IsRetryableError(e) then Reraised(e, n)
      else if n == MaxAttempts || exitRequested then GaveUp(e, n)
      else RetryFrom(server, exitRequested, n + 1)
  }

  /** A request through the decorator: every attempt before the last was a retryable failure;
      the last gives a response, an exception that is not retried, or the fifth (or, once an
      exit is requested, the current) retryable failure, which ends in `RetryError`. */
  function SendWithRetry(server: nat -> Attempt, exitRequested: bool): (r: RequestOutcome)
    ensures 1 <= r.attempts <= MaxAttempts
    ensures forall j :: 1 <= j < r.attempts ==> RetriedFailure(server(j))
    ensures r.Response? ==> server(r.attempts) == Responded(r.response)
    ensures r.Reraised? ==> server(r.attempts) == Raised(r.error) && !IsRetryableError(r.error)
    ensures r.GaveUp? ==> server(r.attempts) == Raised(r.last) && IsRetryableError(r.last)
                          && (r.attempts == MaxAttempts || exitRequested)
    ensures exitRequested ==> r.attempts == 1
  {
    RetryFrom(server, exitRequested, 1)
  }

  /** The attempts a request makes are the retryable failures up to the first attempt that
      is not one, and at most five: so its outcome is decided by where that attempt falls. */
  lemma {:induction false} RetryStopsAtFirstOther(server: nat -> Attempt, exitRequested: bool, k: nat)
    requires 1 <= k <= MaxAttempts && !exitRequested
    requires forall j :: 1 <= j < k ==> RetriedFailure(server(j))
    requires k == MaxAttempts || !RetriedFailure(server(k))
    ensures SendWithRetry(server, exitRequested).attempts == k
  {
    var r := SendWithRetry(server, exitRequested);
    if r.attempts < k {
      // The attempt it stopped at was a retryable failure before the fifth.
      assert false;
    } else if r.attempts > k {
      // The `k`-th attempt would have been retried.
      assert false;
    }
  }

  /** A client timeout is never retried: it reaches the caller on the attempt that raised it,
      where `send_action_for_execution` turns it into `AgentRuntimeTimeoutError`. */
  lemma {:induction false} TimeoutReachesCaller(server: nat -> Attempt, exitRequested: bool, k: nat)
    requires 1 <= k <= MaxAttempts
    requires forall j :: 1 <= j < k ==> RetriedFailure(server(j))
    requires server(k).Raised? && server(k).error.kind == TimeoutException
    requires !exitRequested
    ensures SendWithRetry(server, exitRequested) == Reraised(server(k).error, k)
  {
    RetryStopsAtFirstOther(server, exitRequested, k);
  }

  // ---------------------------------------------------------------------------
  // Actions and observations
  // ---------------------------------------------------------------------------

  /** The action classes `send_action_for_execution` tells apart. */
  datatype ActionKind =
    | CmdRun
    | FileEdit(llmBased: bool)
    | AgentThink
    | OtherAction

  /** `ActionConfirmationStatus`. */
  datatype Confirmation = Confirmed | AwaitingConfirmation | Rejected

  /** An action sent to the runtime. Its timeout fields are set in place. */
  class RuntimeAction {
    const kind: ActionKind
    /** `action.action`, the action's type name. */
    const actionType: string
    const id: int
    const runnable: bool
    /** `confirmation_state`; `None` when the action has no such attribute. */
    const confirmation: Option<Confirmation>
    /** The hard timeout in seconds; `None` when it is not set. */
    var timeout: Option<nat>
    var blocking: bool

    constructor (kind: ActionKind, actionType: string, id: int, runnable: bool,
                 confirmation: Option<Confirmation>, timeout: Option<nat>, blocking: bool)
      ensures this.kind == kind && this.actionType == actionType && this.id == id
      ensures this.runnable == runnable && this.confirmation == confirmation
      ensures this.timeout == timeout && this.blocking == blocking
    {
      this.kind := kind;
      this.actionType := actionType;
      this.id := id;
      this.runnable := runnable;
      this.confirmation := confirmation;
      this.timeout := timeout;
      this.blocking := blocking;
    }
  }

  /** The observations `send_action_for_execution` can return. */
  datatype Observation =
    | AgentThinkObservation(content: string)
    | NullObservation(content: string)
    | ErrorObservation(content: string, errorId: string)
    | UserRejectObservation(content: string)
    /** The observation the server answers with, its cause set to the action's id. */
    | ServerObservation(payload: nat, cause: int)
    /** What `llm_based_edit` returns for the action; that method is not part of this model. */
    | LlmEditObservation(actionId: int)

  const ThoughtLogged := AgentThinkObservation("Your thought has been logged.")
  const BadActionErrorId := "AGENT_ERROR$BAD_ACTION"
  const RejectedByUser := UserRejectObservation("Action has been rejected by the user! Waiting for further user input.")

  /** Either every guard passes and the request goes out, or a guard decides the result. */
  datatype GuardOutcome = Proceed | Decided(result: Result<Observation>)

  /** The guards of `send_action_for_execution`, tested in order; the first that applies
      decides. `known` is the set of action types `ACTION_TYPE_TO_CLASS` holds, `handlers`
      the action types the runtime has a method for. */
  function Guard(kind: ActionKind, actionType: string, runnable: bool, confirmation: Option<Confirmation>,
                 known: set<string>, handlers: set<string>): (g: GuardOutcome)
    ensures g == Proceed <==>
              runnable && confirmation != Some(AwaitingConfirmation) && actionType in known
              && actionType in handlers && confirmation != Some(Rejected)
    ensures g.Decided? && g.result.Err? <==>
              runnable && confirmation != Some(AwaitingConfirmation) && actionType !in known
    ensures g.Decided? && g.result.Err? ==> g.result.error.ValueError?
    ensures g == Decided(Ok(ThoughtLogged)) <==> !runnable && kind == AgentThink
    ensures g == Decided(Ok(RejectedByUser)) <==>
              runnable && confirmation == Some(Rejected) && actionType in known && actionType in handlers
    ensures g == Decided(Ok(NullObservation(""))) <==>
              (!runnable && kind != AgentThink) || (runnable && confirmation == Some(AwaitingConfirmation))
    ensures (g.Decided? && g.result.Ok? && g.result.value.ErrorObservation?) <==>
              runnable && confirmation != Some(AwaitingConfirmation) && actionType in known && actionType !in handlers
    ensures g.Decided? && g.result.Ok? && g.result.value.ErrorObservation? ==>
              g.result.value.errorId == BadActionErrorId
  {
    if !runnable then
      if kind == AgentThink then Decided(Ok(ThoughtLogged)) else Decided(Ok(NullObservation("")))
    else if confirmation == Some(AwaitingConfirmation) then Decided(Ok(NullObservation("")))
    else if actionType !in known then Decided(Err(ValueError("Action " + actionType + " does not exist.")))
    else if actionType !in handlers then
      Decided(Ok(ErrorObservation("Action " + actionType + " is not supported in the current runtime.", BadActionErrorId)))
    else if confirmation == Some(Rejected) then Decided(Ok(RejectedByUser))
    else Proceed
  }

  /** A guard that rejects the action for an unknown type or a missing handler does so
      regardless of a rejection by the user: the type checks come first. */
  lemma {:induction false} TypeChecksBeforeRejection(kind: ActionKind, actionType: string,
                                                     known: set<string>, handlers: set<string>)
    requires actionType !in handlers
    ensures Guard(kind, actionType, true, Some(Rejected), known, handlers)
            == Guard(kind, actionType, true, None, known, handlers)
    ensures Guard(kind, actionType, true, Some(Rejected), known, handlers).Decided?
    ensures Guard(kind, actionType, true, Some(Rejected), known, handlers) != Decided(Ok(RejectedByUser))
  {
  }

  // ---------------------------------------------------------------------------
  // The client
  // ---------------------------------------------------------------------------

  /** A request sent to the action execution server. */
  datatype Request =
    | ExecuteAction(actionId: int, timeout: nat)
    | UpdateMcpServer(payload: seq<StdioServer>)
    | VscodeConnectionToken

  /** What the server does with an `execute_action` request: it answers with an
      observation, or the client gives up waiting. */
  datatype ServerReply = Replied(payload: nat) | ClientTimedOut

  const RuntimeSsePath := "/mcp/sse"
  const StatusOk := 200

  class ActionExecutionClient {
    /** `config.sandbox.timeout`. */
    const sandboxTimeout: nat
    /** `sys.platform`. */
    const platform: string
    /** The action types `ACTION_TYPE_TO_CLASS` holds. */
    const knownActionTypes: set<string>
    /** The action types this runtime has a method of that name for. */
    const handlers: set<string>
    const vscodeEnabled: bool
    const runtimeInitialized: bool
    /** `action_execution_server_url`. */
    const serverUrl: string
    const sessionApiKey: Option<string>
    /** `config.mcp`. */
    const mcp: McpConfig

    var runtimeClosed: bool
    /** How many times the HTTP session has been closed. */
    var sessionCloses: nat
    var vscodeToken: Option<string>
    var lastUpdatedStdio: seq<StdioServer>
    /** Every request sent to the server, oldest first. */
    var requests: seq<Request>

    /** The session is closed once when the runtime is closed and never otherwise. */
    ghost predicate Valid()
      reads this
    {
      sessionCloses == if runtimeClosed then 1 else 0
    }

    constructor (sandboxTimeout: nat, platform: string, knownActionTypes: set<string>, handlers: set<string>,
                 vscodeEnabled: bool, runtimeInitialized: bool, serverUrl: string,
                 sessionApiKey: Option<string>, mcp: McpConfig)
      ensures Valid()
      ensures this.sandboxTimeout == sandboxTimeout && this.platform == platform
      ensures this.knownActionTypes == knownActionTypes && this.handlers == handlers
      ensures this.vscodeEnabled == vscodeEnabled && this.runtimeInitialized == runtimeInitialized
      ensures this.serverUrl == serverUrl && this.sessionApiKey == sessionApiKey && this.mcp == mcp
      ensures !runtimeClosed && vscodeToken == None && lastUpdatedStdio == [] && requests == []
    {
      this.sandboxTimeout := sandboxTimeout;
      this.platform := platform;
      this.knownActionTypes := knownActionTypes;
      this.handlers := handlers;
      this.vscodeEnabled := vscodeEnabled;
      this.runtimeInitialized := runtimeInitialized;
      this.serverUrl := serverUrl;
      this.sessionApiKey := sessionApiKey;
      this.mcp := mcp;
      runtimeClosed := false;
      sessionCloses := 0;
      vscodeToken := None;
      lastUpdatedStdio := [];
      requests := [];
    }

    /** The SSE entry that stands for the runtime itself. */
    function RuntimeSseServer(): (s: SseServer)
      ensures s.apiKey == sessionApiKey
      ensures |s.url| >= |RuntimeSsePath| && s.url[|s.url| - |RuntimeSsePath|..] == RuntimeSsePath
      ensures var base := s.url[..|s.url| - |RuntimeSsePath|];
              && |base| <= |serverUrl| && base == serverUrl[..|base|]
              && (base == [] || base[|base| - 1] != '/')
              && forall i :: |base| <= i < |serverUrl| ==> serverUrl[i] == '/'
    {
      SseServer(RStripChar(serverUrl, '/') + RuntimeSsePath, sessionApiKey)
    }

    /** `send_action_for_execution`. An LLM-based file edit goes to `llm_based_edit` before
        anything else; a blocking command without a timeout is refused; any other action
        without one gets the sandbox default, non-blocking; then the guarded request. */
    method SendActionForExecution(action: RuntimeAction, reply: ServerReply) returns (r: Result<Observation>)
      requires Valid()
      modifies this, action
      ensures Valid()
      ensures runtimeClosed == old(runtimeClosed) && sessionCloses == old(sessionCloses)
      ensures vscodeToken == old(vscodeToken) && lastUpdatedStdio == old(lastUpdatedStdio)
      ensures action.kind == FileEdit(true) ==>
                r == Ok(LlmEditObservation(action.id)) && requests == old(requests)
                && action.timeout == old(action.timeout) && action.blocking == old(action.blocking)
      ensures action.kind != FileEdit(true) && old(action.timeout).None? && action.kind == CmdRun && old(action.blocking) ==>
                r == Err(RuntimeError("Blocking command with no timeout set")) && requests == old(requests)
                && action.timeout == old(action.timeout) && action.blocking == old(action.blocking)
      ensures action.kind != FileEdit(true) && old(action.timeout).None? && !(action.kind == CmdRun && old(action.blocking)) ==>
                action.timeout == Some(sandboxTimeout) && !action.blocking
      ensures old(action.timeout).Some? ==>
                action.timeout == old(action.timeout) && action.blocking == old(action.blocking)
      ensures action.kind != FileEdit(true) && !(old(action.timeout).None? && action.kind == CmdRun && old(action.blocking)) ==>
                action.timeout.Some? && GuardedOutcome(action, action.timeout.value, reply, old(requests), requests, r)
    {
      if action.kind == FileEdit(true) {
        return Ok(LlmEditObservation(action.id));
      }
      if action.timeout.None? {
        if action.kind == CmdRun && action.blocking {
          return Err(RuntimeError("Blocking command with no timeout set"));
        }
        action.timeout := Some(sandboxTimeout);
        action.blocking := false;
      }
      r := ExecuteGuarded(action, action.timeout.value, reply);
    }

    /** The error `send_action_for_execution` raises when the server does not answer in time. */
    function TimeoutError(timeout: nat): (e: Error)
      ensures e.AgentRuntimeTimeoutError?
      ensures var m := e.message; var n := NatToString(timeout);
              |m| > |n| && m[|m| - |n| - 1..] == n + "s"
    {
      AgentRuntimeTimeoutError("Runtime failed to return execute_action before the requested timeout of "
                               + NatToString(timeout) + "s")
    }

    /** What the guarded part of `send_action_for_execution` does, for an action whose timeout
        is `timeout`: a guard that applies decides with no request; otherwise exactly one
        `execute_action` request, waiting five seconds longer than the action's timeout. */
    ghost function GuardedOutcome(action: RuntimeAction, timeout: nat, reply: ServerReply,
                                  before: seq<Request>, after: seq<Request>, r: Result<Observation>): (b: bool)
      reads this, action
      ensures b ==> before <= after && |after| <= |before| + 1
    {
      var g := Guard(action.kind, action.actionType, action.runnable, action.confirmation,
                     knownActionTypes, handlers);
      && (g.Decided? ==> r == g.result && after == before)
      && (g == Proceed ==>
            && after == before + [ExecuteAction(action.id, timeout + 5)]
            && (reply.Replied? ==> r == Ok(ServerObservation(reply.payload, action.id)))
            && (reply.ClientTimedOut? ==> r == Err(TimeoutError(timeout))))
    }

    /** The part of `send_action_for_execution` under the action semaphore. */
    method ExecuteGuarded(action: RuntimeAction, timeout: nat, reply: ServerReply) returns (r: Result<Observation>)
      requires Valid()
      modifies this
      ensures Valid()
      ensures runtimeClosed == old(runtimeClosed) && sessionCloses == old(sessionCloses)
      ensures vscodeToken == old(vscodeToken) && lastUpdatedStdio == old(lastUpdatedStdio)
      ensures GuardedOutcome(action, timeout, reply, old(requests), requests, r)
    {
      var g := Guard(action.kind, action.actionType, action.runnable, action.confirmation,
                     knownActionTypes, handlers);
      if g.Decided? {
        return g.result;
      }
      requests := requests + [ExecuteAction(action.id, timeout + 5)];
      match reply
      case Replied(payload) =>
        r := Ok(ServerObservation(payload, action.id));
      case ClientTimedOut =>
        r := Err(TimeoutError(timeout));
    }

    /** `get_vscode_token`. `serverToken` is the `token` field of the server's answer, if it
        is asked. A cached token is returned without a request; a null token is not cached. */
    method GetVscodeToken(serverToken: Option<string>) returns (token: string)
      requires Valid()
      modifies this
      ensures Valid()
      ensures runtimeClosed == old(runtimeClosed) && sessionCloses == old(sessionCloses)
      ensures lastUpdatedStdio == old(lastUpdatedStdio)
      ensures !(vscodeEnabled && runtimeInitialized) ==>
                token == "" && vscodeToken == old(vscodeToken) && requests == old(requests)
      ensures vscodeEnabled && runtimeInitialized && old(vscodeToken).Some? ==>
                token == old(vscodeToken).value && vscodeToken == old(vscodeToken) && requests == old(requests)
      ensures vscodeEnabled && runtimeInitialized && old(vscodeToken).None? ==>
                && requests == old(requests) + [VscodeConnectionToken]
                && vscodeToken == serverToken
                && token == serverToken.GetOr("")
    {
      if !(vscodeEnabled && runtimeInitialized) {
        return "";
      }
      if vscodeToken.Some? {
        return vscodeToken.value;
      }
      requests := requests + [VscodeConnectionToken];
      if serverToken.None? {
        return "";
      }
      vscodeToken := serverToken;
      token := serverToken.value;
    }

    /** `get_mcp_config`. `extra` are the extra stdio servers; `status` is the status code
        the server answers an `update_mcp_server` request with, if one is sent. */
    method GetMcpConfig(extra: seq<StdioServer>, status: nat) returns (result: McpConfig)
      requires Valid()
      modifies this
      ensures Valid()
      ensures runtimeClosed == old(runtimeClosed) && sessionCloses == old(sessionCloses)
      ensures vscodeToken == old(vscodeToken)
      ensures platform == "win32" ==>
                result == McpConfig([], []) && requests == old(requests) && lastUpdatedStdio == old(lastUpdatedStdio)
      ensures platform != "win32" ==>
                var current := mcp.stdioServers + extra;
                && result.stdioServers == mcp.stdioServers
                && result.sseServers == McpSse(mcp.sseServers, lastUpdatedStdio != [], RuntimeSseServer())
                && (NewServers(current, old(lastUpdatedStdio)) == [] ==>
                      requests == old(requests) && lastUpdatedStdio == old(lastUpdatedStdio))
                && (NewServers(current, old(lastUpdatedStdio)) != [] ==>
                      && |requests| == |old(requests)| + 1 && requests[..|old(requests)|] == old(requests)
                      && requests[|old(requests)|].UpdateMcpServer?
                      && SortedByName(requests[|old(requests)|].payload)
                      && (forall s :: s in requests[|old(requests)|].payload <==>
                                       s in current || s in old(lastUpdatedStdio))
                      && (status != StatusOk ==> lastUpdatedStdio == old(lastUpdatedStdio))
                      && (status == StatusOk ==>
                            && multiset(lastUpdatedStdio) == multiset(requests[|old(requests)|].payload)
                            && |current| <= |lastUpdatedStdio| && lastUpdatedStdio[..|current|] == current))
    {
      if platform == "win32" {
        return McpConfig([], []);
      }
      var current := mcp.stdioServers + extra;
      var newServers := NewServers(current, lastUpdatedStdio);
      if newServers != [] {
        var combined := CombineServers(current, lastUpdatedStdio);
        var payload := SortByName(combined);
        SortByNameSameServers(combined);
        requests := requests + [UpdateMcpServer(payload)];
        if status == StatusOk {
          lastUpdatedStdio := combined;
        }
      }
      result := McpConfig(McpSse(mcp.sseServers, lastUpdatedStdio != [], RuntimeSseServer()), mcp.stdioServers);
    }

    /** `close`: the session is closed by the first call only. */
    method Close()
      requires Valid()
      modifies this
      ensures Valid() && runtimeClosed && sessionCloses == 1
      ensures old(runtimeClosed) ==> sessionCloses == old(sessionCloses)
      ensures vscodeToken == old(vscodeToken) && lastUpdatedStdio == old(lastUpdatedStdio)
      ensures requests == old(requests)
    {
      if runtimeClosed {
        return;
      }
      runtimeClosed := true;
      sessionCloses := sessionCloses + 1;
    }
  }
}

=== FILE: backlog.dfy ===
/**
 * `BacklogTool`: task records kept one JSON file per task in the backlog
 * directory, the file named after the task's sanitised title. The directory is
 * modelled as a map from that file stem to the file's contents.
 */
module Backlog {
  import opened Common
  import opened Text

  /** A task record as `create_backlog_task` writes it. */
  datatype Task = Task(
    title: string,
    description: string,
    phase: string,
    status: string,
    acceptanceCriteria: string,
    createdBy: string)

  /** A `.json` file of the backlog directory: a record, or text `json.load` rejects. */
  datatype Entry = Decoded(task: Task) | Undecodable

  const DefaultStatus := "not_started"
  const Creator := "RDTeamAgent"

  /** The characters the file name may not contain. */
  predicate Unsafe(c: char) {
    c == ' ' || c == '/' || c == '\\'
  }

  /** The file stem of a task: its title with every space, slash and backslash made `_`. */
  function SafeTitle(title: string): (key: string)
    ensures |key| == |title|
    ensures forall i :: 0 <= i < |key| ==> !Unsafe(key[i])
    ensures forall i :: 0 <= i < |key| && !Unsafe(title[i]) ==> key[i] == title[i]
    ensures forall i :: 0 <= i < |key| && Unsafe(title[i]) ==> key[i] == '_'
  {
    Replace(Replace(Replace(title, ' ', '_'), '/', '_'), '\\', '_')
  }

  /** The record `create_backlog_task` writes. */
  function NewTask(title: string, description: string, phase: string, status: string,
                   acceptance: Option<string>): (t: Task)
    ensures t.title == title && t.description == description && t.phase == phase && t.status == status
    ensures t.createdBy == "RDTeamAgent"
    ensures acceptance.None? ==> t.acceptanceCriteria == ""
    ensures acceptance.Some? ==> t.acceptanceCriteria == acceptance.value
  {
    Task(title, description, phase, status, acceptance.GetOr(""), Creator)
  }

  /** Two titles share a file exactly when they agree wherever either has a character
      other than space, slash, backslash or underscore. */
  predicate SameModuloSeparators(a: string, b: string) {
    |a| == |b| &&
    forall i :: 0 <= i < |a| ==>
      a[i] == b[i] || ((Unsafe(a[i]) || a[i] == '_') && (Unsafe(b[i]) || b[i] == '_'))
  }

  lemma {:induction false} SafeTitleCollision(a: string, b: string)
    ensures SafeTitle(a) == SafeTitle(b) <==> SameModuloSeparators(a, b)
  {
    var ka, kb := SafeTitle(a), SafeTitle(b);
    if ka == kb {
      forall i | 0 <= i < |a|
        ensures a[i] == b[i] || ((Unsafe(a[i]) || a[i] == '_') && (Unsafe(b[i]) || b[i] == '_'))
      {
        assert ka[i] == kb[i];
      }
    }
    if SameModuloSeparators(a, b) {
      forall i | 0 <= i < |a| ensures ka[i] == kb[i] {
      }
      assert ka == kb;
    }
  }

  /** Sanitising a sanitised title changes nothing. */
  lemma {:induction false} SafeTitleIdempotent(title: string)
    ensures SafeTitle(SafeTitle(title)) == SafeTitle(title)
  {
    var k := SafeTitle(title);
    var kk := SafeTitle(k);
    forall i | 0 <= i < |k| ensures kk[i] == k[i] {
      assert !Unsafe(k[i]);
    }
  }

  /** The backlog directory. `present` is whether it exists; `files` maps each file stem
      to the file's contents. */
  class BacklogStore {
    var present: bool
    var files: map<string, Entry>

    ghost predicate Valid()
      reads this
    {
      !present ==> files == map[]
    }

    constructor (present: bool, files: map<string, Entry>)
      requires present || files == map[]
      ensures Valid() && this.present == present && this.files == files
    {
      this.present := present;
      this.files := files;
    }

    /** The records of the files that decode. */
    ghost function DecodedTasks(): set<Task>
      reads this
    {
      set k | k in files && files[k].Decoded? :: files[k].task
    }

    /** `os.makedirs(backlog_dir, exist_ok=True)`. */
    method EnsureDirectory()
      requires Valid()
      modifies this
      ensures Valid() && present && files == old(files)
    {
      present := true;
    }

    /** `create_backlog_task`: writes (or overwrites) the file of `SafeTitle(title)` and
        returns its stem. */
    method CreateBacklogTask(title: string, description: string, phase: string,
                             status: string, acceptance: Option<string>)
      returns (key: string)
      requires Valid()
      modifies this
      ensures Valid() && present
      ensures key == SafeTitle(title)
      ensures files == old(files)[key := Decoded(NewTask(title, description, phase, status, acceptance))]
    {
      EnsureDirectory();
      key := SafeTitle(title);
      files := files[key := Decoded(NewTask(title, description, phase, status, acceptance))];
    }

    /** `update_task_status`: a read-modify-write of the `status` of one record. */
    method UpdateTaskStatus(title: string, newStatus: string) returns (r: Result<bool>)
      requires Valid()
      modifies this
      ensures Valid() && present == old(present)
      ensures SafeTitle(title) !in old(files) ==> r == Ok(false) && files == old(files)
      ensures SafeTitle(title) in old(files) && old(files)[SafeTitle(title)].Undecodable? ==>
                r == Err(JsonDecodeError) && files == old(files)
      ensures SafeTitle(title) in old(files) && old(files)[SafeTitle(title)].Decoded? ==>
                r == Ok(true) &&
                files == old(files)[SafeTitle(title) := Decoded(old(files)[SafeTitle(title)].task.(status := newStatus))]
    {
      var key := SafeTitle(title);
      if key !in files {
        return Ok(false);
      }
      match files[key]
      case Undecodable =>
        r := Err(JsonDecodeError);
      case Decoded(t) =>
        files := files[key := Decoded(t.(status := newStatus))];
        r := Ok(true);
    }

    /** `get_backlog_tasks`: the record of every file that decodes, in directory order.
        `order` names the file each record came from. */
    method GetBacklogTasks() returns (tasks: seq<Task>, ghost order: seq<string>)
      requires Valid()
      ensures |order| == |tasks|
      ensures forall i :: 0 <= i < |order| ==> order[i] in files && files[order[i]] == Decoded(tasks[i])
      ensures forall i, j :: 0 <= i < j < |order| ==> order[i] != order[j]
      ensures forall k :: k in files && files[k].Decoded? ==> k in order
      ensures forall t :: t in tasks <==> t in DecodedTasks()
      ensures !present ==> tasks == []
    {
      tasks, order := [], [];
      if !present {
        return;
      }
      var remaining := files.Keys;
      while remaining != {}
        invariant remaining <= files.Keys
        invariant |order| == |tasks|
        invariant forall i :: 0 <= i < |order| ==>
                    order[i] in files && order[i] !in remaining && files[order[i]] == Decoded(tasks[i])
        invariant forall i, j :: 0 <= i < j < |order| ==> order[i] != order[j]
        invariant forall k :: k in files && files[k].Decoded? && k !in remaining ==> k in order
        decreases remaining
      {
        var k :| k in remaining;
        if files[k].Decoded? {
          tasks := tasks + [files[k].task];
          order := order + [k];
        }
        remaining := remaining - {k};
      }
      forall t | t in DecodedTasks() ensures t in tasks {
        var k :| k in files && files[k].Decoded? && files[k].task == t;
        var i :| 0 <= i < |order| && order[i] == k;
      }
    }

    /** `get_tasks_by_phase`: the records, among those that decode, whose phase equals
        `phase` ignoring case. */
    method GetTasksByPhase(phase: string) returns (tasks: seq<Task>, ghost order: seq<string>)
      requires Valid()
      ensures |order| == |tasks|
      ensures forall i :: 0 <= i < |order| ==> order[i] in files && files[order[i]] == Decoded(tasks[i])
      ensures forall i, j :: 0 <= i < j < |order| ==> order[i] != order[j]
      ensures forall i :: 0 <= i < |tasks| ==> Lower(tasks[i].phase) == Lower(phase)
      ensures forall k :: k in files && files[k].Decoded? && Lower(files[k].task.phase) == Lower(phase) ==> k in order
      ensures forall t :: t in tasks ==> t in DecodedTasks()
    {
      tasks, order := [], [];
      if !present {
        return;
      }
      var remaining := files.Keys;
      while remaining != {}
        invariant remaining <= files.Keys
        invariant |order| == |tasks|
        invariant forall i :: 0 <= i < |order| ==>
                    order[i] in files && order[i] !in remaining && files[order[i]] == Decoded(tasks[i])
        invariant forall i, j :: 0 <= i < j < |order| ==> order[i] != order[j]
        invariant forall i :: 0 <= i < |tasks| ==> Lower(tasks[i].phase) == Lower(phase)
        invariant forall k :: k in files && files[k].Decoded? && Lower(files[k].task.phase) == Lower(phase) && k !in remaining ==> k in order
        decreases remaining
      {
        var k :| k in remaining;
        if files[k].Decoded? && Lower(files[k].task.phase) == Lower(phase) {
          tasks := tasks + [files[k].task];
          order := order + [k];
        }
        remaining := remaining - {k};
      }
      forall t | t in tasks ensures t in DecodedTasks() {
        var i :| 0 <= i < |tasks| && tasks[i] == t;
        assert files[order[i]].task == t;
      }
    }
  }
}

=== FILE: common.dfy ===
/** Option, Result and the exceptions the modelled code raises. */
module Common {

  datatype Option<+T> = None | Some(value: T) {
    /** `x or default` for an optional value. */
    function GetOr(default: T): T {
      match this
      case Some(v) => v
      case None => default
    }
  }

  /** The Python exceptions that the modelled routines raise themselves. */
  datatype Error =
    | ValueError(message: string)
    | IndexError(message: string)
    | RuntimeError(message: string)
    | AgentRuntimeTimeoutError(message: string)
    | JsonDecodeError

  /** A value, or the exception raised instead of returning one. */
  datatype Result<+T> = Ok(value: T) | Err(error: Error)
}

=== FILE: events.dfy ===
/**
 * The slice of the agent event model the two agents decide on: who sent an
 * event, message and finish actions, and the state an agent steps on.
 */
module Events {
  import opened Common
  import opened Text

  /** `EventSource`: a `str` enum whose values are 'user', 'agent' and 'environment'. */
  datatype Source = User | Agent | Environment

  /** `AgentFinishTaskCompleted`. */
  datatype TaskCompleted = CompletedFalse | CompletedPartial | CompletedTrue

  /** The actions an agent returns. Every action produced by a collaborator (the LLM's tool
      calls, a condenser's condensation request) is an `OpaqueAction`. */
  datatype Action =
    | MessageAction(content: string, source: Source)
    | AgentFinishAction(finalThought: string, taskCompleted: Option<TaskCompleted>)
    | OpaqueAction(tag: nat)

  /** An entry of `state.history`: an action or an observation. */
  datatype Event = ActionEvent(action: Action) | ObservationEvent(tag: nat)

  /** What `step` reads from `State`: the history, and the content of what
      `state.get_last_user_message()` returns (that method is not part of this model). */
  datatype AgentState = AgentState(history: seq<Event>, lastUserMessage: Option<string>)

  predicate IsMessage(e: Event) {
    e.ActionEvent? && e.action.MessageAction?
  }

  predicate IsUserMessage(e: Event) {
    IsMessage(e) && e.action.source == User
  }

  /** Both agents end the conversation when the last user message, stripped, is `/exit`. */
  predicate IsExitRequest(state: AgentState) {
    state.lastUserMessage.Some? && Strip(state.lastUserMessage.value) == "/exit"
  }

  /** The index of the first event of `h` satisfying `p` (a forward scan with an early return). */
  function FirstIndexWhere(h: seq<Event>, p: Event -> bool): (r: Option<nat>)
    ensures r.Some? ==> r.value < |h| && p(h[r.value])
    ensures r.Some? ==> forall j :: 0 <= j < r.value ==> !p(h[j])
    ensures r.None? ==> forall j :: 0 <= j < |h| ==> !p(h[j])
  {
    if h == [] then None
    else if p(h[0]) then Some(0)
    else match FirstIndexWhere(h[1..], p)
      case None => None
      case Some(i) => Some(i + 1)
  }

  /** The index of the last event of `h` satisfying `p` (a scan over `reversed(h)`). */
  function LastIndexWhere(h: seq<Event>, p: Event -> bool): (r: Option<nat>)
    ensures r.Some? ==> r.value < |h| && p(h[r.value])
    ensures r.Some? ==> forall j :: r.value < j < |h| ==> !p(h[j])
    ensures r.None? ==> forall j :: 0 <= j < |h| ==> !p(h[j])
  {
    if h == [] then None
    else if p(h[|h| - 1]) then Some(|h| - 1)
    else LastIndexWhere(h[..|h| - 1], p)
  }
}

=== FILE: expert_consultant_agent.dfy ===
/**
 * `ExpertConsultantAgent`: the tool list it offers the LLM, chosen from the
 * configuration flags, and its `step`, which drains a FIFO queue of pending
 * actions before it consults the condenser and the LLM.
 */
module ExpertConsultant {
  import opened Common
  import opened Text
  import opened Events

  /** The `AgentConfig` flags `_get_tools` reads. */
  datatype AgentConfig = AgentConfig(
    enableCmd: bool,
    enableThink: bool,
    enableFinish: bool,
    enableCondensationRequest: bool,
    enableBrowsing: bool,
    enableJupyter: bool,
    enableLlmEditor: bool,
    enableEditor: bool)

  /** What `_get_tools` puts in the list: tool schemas, two of them in a short-description
      variant, and the two documentation Action classes, appended as they are. */
  datatype Tool =
    | CmdRunTool(shortDescription: bool)
    | ThinkTool
    | FinishTool
    | CondensationRequestTool
    | BrowserTool
    | IPythonTool
    | LLMBasedFileEditTool
    | StrReplaceEditorTool(shortDescription: bool)
    | GenerateMermaidDiagramAction
    | DocumentationValidatorAction

  /** Models whose names contain one of these get the short tool descriptions. */
  const ShortToolDescriptionModelSubstrings := ["gpt-", "o3", "o1", "o4"]

  /** `use_short_tool_desc`: `model` is the LLM's model name, `None` when there is no LLM. */
  predicate UseShortToolDescription(model: Option<string>): (b: bool)
    ensures b <==> model.Some? && (Contains(model.value, "gpt-") || Contains(model.value, "o3")
                                   || Contains(model.value, "o1") || Contains(model.value, "o4"))
  {
    var subs := ShortToolDescriptionModelSubstrings;
    assert subs[0] == "gpt-" && subs[1] == "o3" && subs[2] == "o1" && subs[3] == "o4";
    model.Some? &&
    exists k :: 0 <= k < |ShortToolDescriptionModelSubstrings| && Contains(model.value, ShortToolDescriptionModelSubstrings[k])
  }

  /** The slot a tool takes in the list: the order in which `_get_tools` tests its flags.
      The two editors share a slot. */
  function Slot(t: Tool): nat {
    match t
    case CmdRunTool(_) => 0
    case ThinkTool => 1
    case FinishTool => 2
    case CondensationRequestTool => 3
    case BrowserTool => 4
    case IPythonTool => 5
    case LLMBasedFileEditTool => 6
    case StrReplaceEditorTool(_) => 6
    case GenerateMermaidDiagramAction => 7
    case DocumentationValidatorAction => 8
  }

  predicate IsEditor(t: Tool) {
    t.LLMBasedFileEditTool? || t.StrReplaceEditorTool?
  }

  /** `if enabled: tools.append(t)`. */
  function Append(tools: seq<Tool>, enabled: bool, t: Tool): (r: seq<Tool>)
    ensures forall x :: x in r <==> x in tools || (enabled && x == t)
  {
    if enabled then tools + [t] else tools
  }

  /** The number of single-tool flags `_get_tools` tests before the editor. */
  const FlagCount := 6

  /** The flag of the `k`-th single-tool `if` of `_get_tools`; the browser is never
      offered on `win32`. */
  predicate FlagEnabled(config: AgentConfig, platform: string, k: nat) {
    match k
    case 0 => config.enableCmd
    case 1 => config.enableThink
    case 2 => config.enableFinish
    case 3 => config.enableCondensationRequest
    case 4 => config.enableBrowsing && platform != "win32"
    case _ => config.enableJupyter
  }

  /** The tool the `k`-th single-tool `if` appends; it takes slot `k`. */
  function FlagTool(k: nat, short: bool): (t: Tool)
    requires k < FlagCount
    ensures Slot(t) == k
    ensures t.CmdRunTool? ==> t.shortDescription == short
  {
    match k
    case 0 => CmdRunTool(short)
    case 1 => ThinkTool
    case 2 => FinishTool
    case 3 => CondensationRequestTool
    case 4 => BrowserTool
    case _ => IPythonTool
  }

  /** The list after the first `n` single-tool `if`s of `_get_tools`. `short` is whether
      the command tool takes its short description. */
  function FlagTools(config: AgentConfig, short: bool, platform: string, n: nat): (tools: seq<Tool>)
    requires n <= FlagCount
    ensures |tools| <= n
  {
    if n == 0 then []
    else Append(FlagTools(config, short, platform, n - 1), FlagEnabled(config, platform, n - 1), FlagTool(n - 1, short))
  }

  /** The editor `_get_tools` adds: the LLM-based editor if enabled, else the str_replace
      editor if enabled, else none. */
  function EditorTools(config: AgentConfig, short: bool): (tools: seq<Tool>)
    ensures |tools| <= 1 && forall t :: t in tools ==> IsEditor(t)
    ensures tools == [] <==> !config.enableLlmEditor && !config.enableEditor
    ensures LLMBasedFileEditTool in tools <==> config.enableLlmEditor
  {
    if config.enableLlmEditor then [LLMBasedFileEditTool]
    else if config.enableEditor then [StrReplaceEditorTool(short)]
    else []
  }

  /** `_get_tools`: a tool per enabled flag, in flag order, then the two documentation Action classes. */
  function GetTools(config: AgentConfig, model: Option<string>, platform: string): (tools: seq<Tool>)
    ensures |tools| >= 2
    ensures tools[|tools| - 2] == GenerateMermaidDiagramAction && tools[|tools| - 1] == DocumentationValidatorAction
  {
    var short := UseShortToolDescription(model);
    FlagTools(config, short, platform, FlagCount) + EditorTools(config, short)
      + [GenerateMermaidDiagramAction, DocumentationValidatorAction]
  }

  /** Slots strictly increase along the list. */
  predicate Increasing(tools: seq<Tool>) {
    forall i, j :: 0 <= i < j < |tools| ==> Slot(tools[i]) < Slot(tools[j])
  }

  /** The list, read from its end, steps down in slot, and its last slot is below `k`. */
  predicate SortedBelow(tools: seq<Tool>, k: nat)
    decreases |tools|
  {
    tools == [] ||
    (Slot(tools[|tools| - 1]) < k && SortedBelow(tools[..|tools| - 1], Slot(tools[|tools| - 1])))
  }

  lemma {:induction false} SortedBelowWeaken(tools: seq<Tool>, k: nat, k': nat)
    requires SortedBelow(tools, k) && k <= k'
    ensures SortedBelow(tools, k')
  {
  }

  /** Every slot of a list sorted below `k` is below `k`, and its slots strictly increase. */
  lemma {:induction false} SortedBelowIncreasing(tools: seq<Tool>, k: nat)
    requires SortedBelow(tools, k)
    ensures Increasing(tools)
    ensures forall i :: 0 <= i < |tools| ==> Slot(tools[i]) < k
    decreases |tools|
  {
    if tools != [] {
      var n := |tools| - 1;
      var init := tools[..n];
      SortedBelowIncreasing(init, Slot(tools[n]));
      forall i | 0 <= i < n ensures Slot(tools[i]) < Slot(tools[n]) {
        assert tools[i] == init[i];
      }
      forall i, j | 0 <= i < j < |tools| ensures Slot(tools[i]) < Slot(tools[j]) {
        assert tools[i] == init[i];
        if j < n { assert tools[j] == init[j]; }
      }
    }
  }

  lemma {:induction false} AppendOrdered(tools: seq<Tool>, enabled: bool, t: Tool)
    requires SortedBelow(tools, Slot(t))
    ensures SortedBelow(Append(tools, enabled, t), Slot(t) + 1)
  {
    if enabled {
      var r := tools + [t];
      assert r[..|r| - 1] == tools;
    } else {
      SortedBelowWeaken(tools, Slot(t), Slot(t) + 1);
    }
  }

  lemma {:induction false} FlagToolsOrdered(config: AgentConfig, short: bool, platform: string, n: nat)
    requires n <= FlagCount
    ensures SortedBelow(FlagTools(config, short, platform, n), n)
  {
    if n > 0 {
      FlagToolsOrdered(config, short, platform, n - 1);
      AppendOrdered(FlagTools(config, short, platform, n - 1), FlagEnabled(config, platform, n - 1), FlagTool(n - 1, short));
    }
  }

  /** The tool of the `k`-th single-tool `if` is among the first `n` flag tools exactly
      when that `if` is one of them and its flag is set. */
  lemma {:induction false} FlagToolsMembership(config: AgentConfig, short: bool, platform: string, n: nat, k: nat)
    requires n <= FlagCount && k < FlagCount
    ensures FlagTool(k, short) in FlagTools(config, short, platform, n) <==>
            k < n && FlagEnabled(config, platform, k)
  {
    if n > 0 {
      var prev := FlagTools(config, short, platform, n - 1);
      var last := FlagTool(n - 1, short);
      assert FlagTools(config, short, platform, n) == Append(prev, FlagEnabled(config, platform, n - 1), last);
      assert FlagTool(k, short) == last <==> k == n - 1 by {
        if FlagTool(k, short) == last {
          assert Slot(FlagTool(k, short)) == Slot(last);
        }
      }
      FlagToolsMembership(config, short, platform, n - 1, k);
    }
  }

  /** Every flag tool sits in a slot below `n`, so it is no editor, and a command tool
      carries the short-description choice. */
  lemma {:induction false} FlagToolsShape(config: AgentConfig, short: bool, platform: string, n: nat)
    requires n <= FlagCount
    ensures forall t :: t in FlagTools(config, short, platform, n) ==>
              Slot(t) < n && (t.CmdRunTool? ==> t.shortDescription == short)
  {
    if n > 0 {
      var prev := FlagTools(config, short, platform, n - 1);
      assert FlagTools(config, short, platform, n) == Append(prev, FlagEnabled(config, platform, n - 1), FlagTool(n - 1, short));
      FlagToolsShape(config, short, platform, n - 1);
    }
  }

  /** The editor and the two documentation Action classes keep a sorted list of flag tools sorted. */
  lemma {:induction false} TailOrdered(flags: seq<Tool>, config: AgentConfig, short: bool)
    requires SortedBelow(flags, Slot(LLMBasedFileEditTool))
    ensures SortedBelow(flags + EditorTools(config, short) + [GenerateMermaidDiagramAction, DocumentationValidatorAction],
                        Slot(DocumentationValidatorAction) + 1)
  {
    var t6 := flags + EditorTools(config, short);
    if config.enableLlmEditor {
      AppendOrdered(flags, true, LLMBasedFileEditTool);
      assert t6 == Append(flags, true, LLMBasedFileEditTool);
    } else {
      AppendOrdered(flags, config.enableEditor, StrReplaceEditorTool(short));
      assert t6 == Append(flags, config.enableEditor, StrReplaceEditorTool(short));
    }
    AppendOrdered(t6, true, GenerateMermaidDiagramAction);
    AppendOrdered(t6 + [GenerateMermaidDiagramAction], true, DocumentationValidatorAction);
    assert t6 + [GenerateMermaidDiagramAction] + [DocumentationValidatorAction]
        == t6 + [GenerateMermaidDiagramAction, DocumentationValidatorAction];
  }

  /** The tools come in flag order, each at most once: their slots strictly increase.
      Since both editors take the same slot, at most one editor is offered. */
  lemma {:induction false} GetToolsOrdered(config: AgentConfig, model: Option<string>, platform: string)
    ensures Increasing(GetTools(config, model, platform))
    ensures var tools := GetTools(config, model, platform);
      forall i, j :: 0 <= i < j < |tools| && IsEditor(tools[i]) ==> !IsEditor(tools[j])
  {
    var short := UseShortToolDescription(model);
    var flags := FlagTools(config, short, platform, FlagCount);
    FlagToolsOrdered(config, short, platform, FlagCount);
    TailOrdered(flags, config, short);
    var tools := GetTools(config, model, platform);
    SortedBelowIncreasing(tools, Slot(DocumentationValidatorAction) + 1);
    forall i, j | 0 <= i < j < |tools| && IsEditor(tools[i]) ensures !IsEditor(tools[j]) {
      assert Slot(tools[i]) < Slot(tools[j]);
    }
  }

  /** The tool of the `k`-th single-tool `if` is offered exactly when its flag is set. */
  lemma {:induction false} FlagToolOffered(config: AgentConfig, model: Option<string>, platform: string, k: nat)
    requires k < FlagCount
    ensures FlagTool(k, UseShortToolDescription(model)) in GetTools(config, model, platform) <==>
            FlagEnabled(config, platform, k)
  {
    var short := UseShortToolDescription(model);
    var t := FlagTool(k, short);
    var flags := FlagTools(config, short, platform, FlagCount);
    var rest := EditorTools(config, short) + [GenerateMermaidDiagramAction, DocumentationValidatorAction];
    assert GetTools(config, model, platform) == flags + rest;
    assert t !in rest;
    FlagToolsMembership(config, short, platform, FlagCount, k);
  }

  /** The editor offered, and the description the command and editor tools carry. */
  lemma {:induction false} EditorOffered(config: AgentConfig, model: Option<string>, platform: string)
    ensures var tools := GetTools(config, model, platform);
      && (LLMBasedFileEditTool in tools <==> config.enableLlmEditor)
      && (StrReplaceEditorTool(UseShortToolDescription(model)) in tools <==>
            !config.enableLlmEditor && config.enableEditor)
      && forall t :: t in tools && (t.CmdRunTool? || t.StrReplaceEditorTool?) ==>
           t.shortDescription == UseShortToolDescription(model)
  {
    var short := UseShortToolDescription(model);
    var flags := FlagTools(config, short, platform, FlagCount);
    var tools := GetTools(config, model, platform);
    assert tools == flags + EditorTools(config, short) + [GenerateMermaidDiagramAction, DocumentationValidatorAction];
    FlagToolsShape(config, short, platform, FlagCount);
  }

  /** Which tools are offered: each flag's tool exactly when its flag is set, the LLM editor
      whenever it is enabled, the str_replace editor only when the LLM editor is not, and
      the browser never on `win32`. The command and editor tools carry the short
      description exactly when the model calls for it. */
  lemma {:induction false} GetToolsMembership(config: AgentConfig, model: Option<string>, platform: string)
    ensures var tools := GetTools(config, model, platform);
      && (CmdRunTool(UseShortToolDescription(model)) in tools <==> config.enableCmd)
      && (ThinkTool in tools <==> config.enableThink)
      && (FinishTool in tools <==> config.enableFinish)
      && (CondensationRequestTool in tools <==> config.enableCondensationRequest)
      && (BrowserTool in tools <==> config.enableBrowsing && platform != "win32")
      && (IPythonTool in tools <==> config.enableJupyter)
      && (LLMBasedFileEditTool in tools <==> config.enableLlmEditor)
      && (StrReplaceEditorTool(UseShortToolDescription(model)) in tools <==>
            !config.enableLlmEditor && config.enableEditor)
    ensures var tools := GetTools(config, model, platform);
      forall t :: t in tools && (t.CmdRunTool? || t.StrReplaceEditorTool?) ==>
        t.shortDescription == UseShortToolDescription(model)
  {
    FlagToolOffered(config, model, platform, 0);
    FlagToolOffered(config, model, platform, 1);
    FlagToolOffered(config, model, platform, 2);
    FlagToolOffered(config, model, platform, 3);
    FlagToolOffered(config, model, platform, 4);
    FlagToolOffered(config, model, platform, 5);
    EditorOffered(config, model, platform);
  }

  // ---------------------------------------------------------------------------
  // The agent
  // ---------------------------------------------------------------------------

  /** What the condenser returns: a view of the events to send, or a condensation whose
      action the agent returns as it is. */
  datatype CondenserResult = View(events: seq<Event>) | Condensation(action: Action)

  /** `AgentFinishAction()` with its defaults: no final thought, no completion verdict. */
  const DefaultFinish := AgentFinishAction("", None)

  /** `_get_initial_user_message`: the first message of the history whose source is the user. */
  function InitialUserMessage(history: seq<Event>): (r: Result<Action>)
    ensures r.Ok? <==> exists i :: 0 <= i < |history| && IsUserMessage(history[i])
    ensures r.Ok? ==> exists i :: 0 <= i < |history| && IsUserMessage(history[i]) && r.value == history[i].action
                        && forall j :: 0 <= j < i ==> !IsUserMessage(history[j])
    ensures r.Ok? ==> r.value.MessageAction? && r.value.source == User
    ensures r.Err? ==> r.error.ValueError?
  {
    match FirstIndexWhere(history, IsUserMessage)
    case None => Err(ValueError("Initial user message not found in history. Please report this issue."))
    case Some(i) => Ok(history[i].action)
  }

  class ExpertConsultantAgent {
    var pendingActions: seq<Action>
    /** The tools offered to the LLM, fixed when the agent is built. */
    const tools: seq<Tool>

    /** `__init__`: an empty queue and the tools `_get_tools` chooses. */
    constructor (config: AgentConfig, model: Option<string>, platform: string)
      ensures pendingActions == [] && tools == GetTools(config, model, platform)
    {
      pendingActions := [];
      tools := GetTools(config, model, platform);
    }

    /** `reset`: only the pending actions are cleared. */
    method Reset()
      modifies this
      ensures pendingActions == []
    {
      pendingActions := [];
    }

    /** `step`. `condensed` is what the condenser returns for the state; `llmActions` is what
        `response_to_actions` makes of the LLM's completion. */
    method Step(state: AgentState, condensed: CondenserResult, llmActions: seq<Action>) returns (r: Result<Action>)
      modifies this
      ensures old(pendingActions) != [] ==>
                r == Ok(old(pendingActions)[0]) && pendingActions == old(pendingActions)[1..]
      ensures old(pendingActions) == [] && IsExitRequest(state) ==>
                r == Ok(DefaultFinish) && pendingActions == []
      ensures old(pendingActions) == [] && !IsExitRequest(state) && condensed.Condensation? ==>
                r == Ok(condensed.action) && pendingActions == []
      ensures old(pendingActions) == [] && !IsExitRequest(state) && condensed.View?
              && InitialUserMessage(state.history).Err? ==>
                r == Err(InitialUserMessage(state.history).error) && pendingActions == []
      ensures old(pendingActions) == [] && !IsExitRequest(state) && condensed.View?
              && InitialUserMessage(state.history).Ok? ==>
                if llmActions == [] then r == Err(IndexError("pop from an empty deque")) && pendingActions == []
                else r == Ok(llmActions[0]) && pendingActions == llmActions[1..]
    {
      if pendingActions != [] {
        r := Ok(pendingActions[0]);
        pendingActions := pendingActions[1..];
        return;
      }
      if IsExitRequest(state) {
        return Ok(DefaultFinish);
      }
      match condensed
      case Condensation(a) =>
        return Ok(a);
      case View(_) =>
        var initial := InitialUserMessage(state.history);
        if initial.Err? {
          return Err(initial.error);
        }
        var i := 0;
        while i < |llmActions|
          invariant 0 <= i <= |llmActions|
          invariant pendingActions == llmActions[..i]
        {
          pendingActions := pendingActions + [llmActions[i]];
          i := i + 1;
        }
        if pendingActions == [] {
          return Err(IndexError("pop from an empty deque"));
        }

        r := Ok(pendingActions[0]);
        pendingActions := pendingActions[1..];
    }
  }
}

=== FILE: mcp_servers.dfy ===
/**
 * The MCP server lists `get_mcp_config` reconciles: which configured stdio
 * servers the runtime has not been told about yet, the union it sends, the
 * order of the payload, and the SSE entry that stands for the runtime itself.
 */
module McpServers {
  import opened Common

  /** `MCPStdioServerConfig`; two servers are `==` when every field agrees. */
  datatype StdioServer = StdioServer(name: string, command: string, args: seq<string>, env: map<string, string>)

  /** `MCPSSEServerConfig`. */
  datatype SseServer = SseServer(url: string, apiKey: Option<string>)

  /** `MCPConfig`, with the two lists `get_mcp_config` touches. */
  datatype McpConfig = McpConfig(sseServers: seq<SseServer>, stdioServers: seq<StdioServer>)

  /** The servers of `current` that are not in `cached`, in the order of `current`. */
  function NewServers(current: seq<StdioServer>, cached: seq<StdioServer>): (r: seq<StdioServer>)
    ensures |r| <= |current|
    ensures forall s :: s in r <==> s in current && s !in cached
  {
    if current == [] then []
    else
      var rest := NewServers(current[1..], cached);
      if current[0] in cached then rest else [current[0]] + rest
  }

  /** There is nothing new exactly when every current server is already cached. */
  lemma {:induction false} NoNewServersIff(current: seq<StdioServer>, cached: seq<StdioServer>)
    ensures NewServers(current, cached) == [] <==> forall s :: s in current ==> s in cached
  {
    if NewServers(current, cached) != [] {
      var s := NewServers(current, cached)[0];
      assert s in current && s !in cached;
    }
  }

  /** `combined_servers`: a copy of `current`, then each cached server not already in it,
      in cached order. */
  method CombineServers(current: seq<StdioServer>, cached: seq<StdioServer>) returns (combined: seq<StdioServer>)
    ensures |current| <= |combined| && combined[..|current|] == current
    ensures forall s :: s in combined <==> s in current || s in cached
    ensures forall i :: |current| <= i < |combined| ==> combined[i] !in current
    ensures forall i, j :: |current| <= i < j < |combined| ==> combined[i] != combined[j]
  {
    combined := current;
    var k := 0;
    while k < |cached|
      invariant 0 <= k <= |cached|
      invariant |current| <= |combined| && combined[..|current|] == current
      invariant forall s :: s in combined <==> s in current || s in cached[..k]
      invariant forall i :: |current| <= i < |combined| ==> combined[i] !in current
      invariant forall i, j :: |current| <= i < j < |combined| ==> combined[i] != combined[j]
    {
      var server := cached[k];
      if server !in combined {
        combined := combined + [server];
      }
      assert cached[..k + 1] == cached[..k] + [server];
      k := k + 1;
    }
    assert cached[..k] == cached;
  }

  /** Once the runtime holds the union, the same current servers hold nothing new: a
      second `get_mcp_config` after a successful update sends no request. */
  lemma {:induction false} UpdateSettles(current: seq<StdioServer>, cached: seq<StdioServer>, combined: seq<StdioServer>)
    requires forall s :: s in combined <==> s in current || s in cached
    ensures NewServers(current, combined) == []
  {
    NoNewServersIff(current, combined);
  }

  // ---------------------------------------------------------------------------
  // The payload order: `stdio_tools.sort(key=lambda x: x.get('name', ''))`
  // ---------------------------------------------------------------------------

  /** Python's `<` on `str`: code point by code point, a proper prefix first. */
  predicate NameLess(a: string, b: string)
    decreases |a|
  {
    if a == [] then b != []
    else b != [] && (a[0] < b[0] || (a[0] == b[0] && NameLess(a[1..], b[1..])))
  }

  /** No name is below a name below it. */
  lemma {:induction false} NameLessAsymmetric(a: string, b: string)
    requires NameLess(a, b)
    ensures !NameLess(b, a)
    decreases |a|
  {
    if a != [] && a[0] == b[0] && NameLess(a[1..], b[1..]) {
      NameLessAsymmetric(a[1..], b[1..]);
    }
  }

  /** Each server's name is not below the name before it. */
  ghost predicate SortedByName(s: seq<StdioServer>) {
    forall i, j :: 0 <= i < j < |s| && j == i + 1 ==> !NameLess(s[j].name, s[i].name)
  }

  /** Inserts `x` before the first server whose name is above its own, so after every
      server of an equal name. */
  function InsertByName(x: StdioServer, s: seq<StdioServer>): (r: seq<StdioServer>)
    requires SortedByName(s)
    ensures SortedByName(r)
    ensures multiset(r) == multiset(s) + multiset{x}
    ensures |r| == |s| + 1 && r != []
    ensures r[0] == x || (s != [] && r[0] == s[0])
  {
    if s == [] then [x]
    else if NameLess(x.name, s[0].name) then
      NameLessAsymmetric(x.name, s[0].name);
      [x] + s
    else
      var rest := InsertByName(x, s[1..]);
      assert s == [s[0]] + s[1..];
      [s[0]] + rest
  }

  /** The list sorted by name, servers of equal name kept in their order (an insertion sort,
      as stable as Python's `list.sort`). */
  function SortByName(s: seq<StdioServer>): (r: seq<StdioServer>)
    ensures SortedByName(r)
    ensures multiset(r) == multiset(s)
    ensures |r| == |s|
  {
    if s == [] then []
    else
      var init := s[..|s| - 1];
      assert s == init + [s[|s| - 1]];
      InsertByName(s[|s| - 1], SortByName(init))
  }

  /** The payload holds exactly the servers of the list it sorts. */
  lemma {:induction false} SortByNameSameServers(s: seq<StdioServer>)
    ensures forall x :: x in SortByName(s) <==> x in s
  {
    var r := SortByName(s);
    forall x ensures x in r <==> x in s {
      assert x in r <==> x in multiset(r);
      assert x in s <==> x in multiset(s);
    }
  }

  /** A list already sorted by name is left as it is. */
  lemma {:induction false} SortByNameKeepsSorted(s: seq<StdioServer>)
    requires SortedByName(s)
    ensures SortByName(s) == s
    decreases |s|
  {
    if s != [] {
      var init := s[..|s| - 1];
      var x := s[|s| - 1];
      assert SortByName(s) == InsertByName(x, SortByName(init));
      SortedInit(s);
      SortByNameKeepsSorted(init);
      assert init != [] ==> !NameLess(x.name, init[|init| - 1].name) by {
        if init != [] {
          assert init[|init| - 1] == s[|s| - 2];
        }
      }
      InsertAfterLast(x, init);
      assert s == init + [x];
    }
  }

  /** Sorting the payload twice is sorting it once. */
  lemma {:induction false} SortByNameIdempotent(s: seq<StdioServer>)
    ensures SortByName(SortByName(s)) == SortByName(s)
  {
    SortByNameKeepsSorted(SortByName(s));
  }

  /** A server whose name is not below the last name of a sorted list goes to its end. */
  lemma {:induction false} InsertAfterLast(x: StdioServer, s: seq<StdioServer>)
    requires SortedByName(s)
    requires s != [] ==> !NameLess(x.name, s[|s| - 1].name)
    ensures InsertByName(x, s) == s + [x]
    decreases |s|
  {
    if s != [] {
      NotBelowFirst(x, s);
      var tail := s[1..];
      SortedTail(s);
      assert tail != [] ==> tail[|tail| - 1] == s[|s| - 1];
      InsertAfterLast(x, tail);
      calc {
        InsertByName(x, s);
        [s[0]] + InsertByName(x, tail);
        [s[0]] + (tail + [x]);
        { assert [s[0]] + (tail + [x]) == ([s[0]] + tail) + [x]; assert s == [s[0]] + tail; }
        s + [x];
      }
    }
  }

  /** The tail of a sorted list is sorted. */
  lemma {:induction false} SortedTail(s: seq<StdioServer>)
    requires SortedByName(s) && s != []
    ensures SortedByName(s[1..])
  {
    var tail := s[1..];
    forall i, j | 0 <= i && j == i + 1 && j < |tail| ensures !NameLess(tail[j].name, tail[i].name) {
      assert tail[j] == s[j + 1] && tail[i] == s[i + 1];
    }
  }

  /** A sorted list without its last server is sorted. */
  lemma {:induction false} SortedInit(s: seq<StdioServer>)
    requires SortedByName(s) && s != []
    ensures SortedByName(s[..|s| - 1])
  {
    var init := s[..|s| - 1];
    forall i, j | 0 <= i && j == i + 1 && j < |init| ensures !NameLess(init[j].name, init[i].name) {
      assert init[j] == s[j] && init[i] == s[i];
    }
  }

  /** A name not below the last name of a sorted list is not below its first. */
  lemma {:induction false} NotBelowFirst(x: StdioServer, s: seq<StdioServer>)
    requires SortedByName(s) && s != [] && !NameLess(x.name, s[|s| - 1].name)
    ensures !NameLess(x.name, s[0].name)
  {
    SortedNotBelowFirst(s, |s| - 1);
  }

  /** In a sorted list, if a name is below the first it is below every later one. */
  lemma {:induction false} SortedNotBelowFirst(s: seq<StdioServer>, k: nat)
    requires SortedByName(s) && k < |s|
    ensures forall n :: NameLess(n, s[0].name) ==> NameLess(n, s[k].name)
    decreases k
  {
    if k > 0 {
      SortedNotBelowFirst(s, k - 1);
      forall n | NameLess(n, s[0].name) ensures NameLess(n, s[k].name) {
        NameLessNotBelow(n, s[k - 1].name, s[k].name);
      }
    }
  }

  /** If `a < b` and `c` is not below `b`, then `a < c`. */
  lemma {:induction false} NameLessNotBelow(a: string, b: string, c: string)
    requires NameLess(a, b) && !NameLess(c, b)
    ensures NameLess(a, c)
    decreases |a|
  {
    if a != [] && c != [] && b != [] && a[0] == b[0] && b[0] == c[0] {
      NameLessNotBelow(a[1..], b[1..], c[1..]);
    }
  }

  // ---------------------------------------------------------------------------
  // The runtime's own SSE entry
  // ---------------------------------------------------------------------------

  /** The SSE lists one `get_mcp_config` call leaves: the list it returns and the list the
      agent's configuration holds afterwards. `runtime` is the runtime's own SSE entry,
      appended when `hasCache` (the cached stdio list is non-empty). As written, the
      returned config is a `model_copy()` of the configuration, which shares its
      `sse_servers` list, so the append lands in the configuration too. */
  function McpSseAsWritten(configSse: seq<SseServer>, hasCache: bool, runtime: SseServer)
    : (r: (seq<SseServer>, seq<SseServer>))
    ensures r.0 == r.1
    ensures hasCache ==> r.1 == configSse + [runtime]
    ensures !hasCache ==> r.1 == configSse
  {
    var shared := if hasCache then configSse + [runtime] else configSse;
    (shared, shared)
  }

  /** Two calls with a non-empty cache: the second returns the runtime's entry twice, and
      every later call once more. */
  lemma {:induction false} McpSseAsWrittenDuplicates(configSse: seq<SseServer>, runtime: SseServer)
    ensures var (_, after1) := McpSseAsWritten(configSse, true, runtime);
            var (returned2, _) := McpSseAsWritten(after1, true, runtime);
            returned2 == configSse + [runtime, runtime]
  {
  }

  /** The runtime entries in a list. */
  function CountOf(s: seq<SseServer>, x: SseServer): (n: nat)
    ensures n <= |s|
    ensures n == 0 <==> x !in s
  {
    if s == [] then 0 else (if s[0] == x then 1 else 0) + CountOf(s[1..], x)
  }

  /** The list `get_mcp_config` evidently means to return: the configured SSE servers, and
      the runtime's entry after them when the cache is non-empty; the configuration is
      left as it was. */
  function McpSse(configSse: seq<SseServer>, hasCache: bool, runtime: SseServer): (r: seq<SseServer>)
    ensures |r| >= |configSse| && r[..|configSse|] == configSse
    ensures hasCache ==> CountOf(r, runtime) == CountOf(configSse, runtime) + 1
    ensures hasCache ==> |r| == |configSse| + 1 && r[|configSse|] == runtime
    ensures !hasCache ==> r == configSse
  {
    if hasCache then
      CountAppend(configSse, runtime);
      configSse + [runtime]
    else configSse
  }

  lemma {:induction false} CountAppend(s: seq<SseServer>, x: SseServer)
    ensures CountOf(s + [x], x) == CountOf(s, x) + 1
    decreases |s|
  {
    if s != [] {
      assert (s + [x])[1..] == s[1..] + [x];
      CountAppend(s[1..], x);
    } else {
      assert CountOf([x], x) == 1 + CountOf([], x);
    }
  }

  /** The corrected behaviour has no memory: every call returns the same list, with the
      runtime's entry exactly once more than the configuration holds it. */
  lemma {:induction false} McpSseSecondCallDiffers(configSse: seq<SseServer>, runtime: SseServer)
    ensures McpSse(configSse, true, runtime) == McpSseAsWritten(configSse, true, runtime).0
    ensures McpSseAsWritten(McpSseAsWritten(configSse, true, runtime).1, true, runtime).0
            != McpSse(configSse, true, runtime)
  {
    var once := configSse + [runtime];
    var twice := once + [runtime];
    assert |twice| != |once|;
  }
}

=== FILE: mermaid.dfy ===
/**
 * `GenerateMermaidDiagramAction.run`: wraps the text it is given in a Markdown
 * code block tagged `mermaid`, without escaping or inspecting it.
 */
module Mermaid {
  import opened Common

  /** The opening fence line: three backticks, `mermaid`, a newline (11 characters). */
  const OpeningFence := "```mermaid\n"
  /** The closing fence: a newline and three backticks (4 characters). */
  const ClosingFence := "\n```"

  /** `run`: the input between the two fences, verbatim. */
  function Run(input: string): (block: string)
    ensures |block| == |input| + 15
    ensures block[..11] == OpeningFence
    ensures block[|block| - 4..] == ClosingFence
    ensures block[11..|block| - 4] == input
  {
    OpeningFence + input + ClosingFence
  }

  /** The text of a `mermaid` block: what lies between the fences, if `block` has them. */
  function Contents(block: string): (r: Option<string>)
    ensures r.Some? <==> |block| >= 15 && block[..11] == OpeningFence && block[|block| - 4..] == ClosingFence
    ensures r.Some? ==> |r.value| == |block| - 15
  {
    if |block| >= 15 && block[..11] == OpeningFence && block[|block| - 4..] == ClosingFence
    then Some(block[11..|block| - 4])
    else None
  }

  /** The text of the block `run` makes is the input. */
  lemma {:induction false} ContentsOfRun(input: string)
    ensures Contents(Run(input)) == Some(input)
  {
  }

  /** Every `mermaid` block is what `run` makes of its text. */
  lemma {:induction false} RunOfContents(block: string)
    requires Contents(block).Some?
    ensures Run(Contents(block).value) == block
  {
    var s := Contents(block).value;
    assert block == block[..11] + s + block[|block| - 4..];
  }

  /** Different inputs give different blocks. */
  lemma {:induction false} RunInjective(a: string, b: string)
    requires Run(a) == Run(b)
    ensures a == b
  {
    ContentsOfRun(a);
    ContentsOfRun(b);
  }
}

=== FILE: rd_team_agent.dfy ===
/**
 * `RDTeamAgent`: phase inference over the conversation and the backlog, and the
 * FIFO queue of pending actions that `step` drains before deciding anything.
 */
module RDTeam {
  import opened Common
  import opened Text
  import opened Events
  import opened Backlog

  const RequirementsGathering := "requirements_gathering"

  /** `default_phases`, in workflow order. */
  const DefaultPhases := [RequirementsGathering, "planning", "architecture", "development", "testing", "validation"]

  /** The phases the backlog is searched for, most advanced first. */
  const RankedPhases := ["validation", "testing", "development", "architecture", "planning"]

  const PhaseMarker := "phase:"

  const GatherRequirementsTitle := "Gather Requirements"
  const ProjectPlanTitle := "Create Project Plan"

  const GatherRequirementsTask :=
    NewTask(GatherRequirementsTitle, "Collect user requirements for the project", RequirementsGathering,
            DefaultStatus, Some("User requirements have been collected and documented"))

  const ProjectPlanTask :=
    NewTask(ProjectPlanTitle, "Develop a project plan based on requirements", "planning",
            DefaultStatus, Some("Project plan is created with milestones and timelines"))

  const AskForRequirements :=
    MessageAction("As the Product Owner, I need to understand your requirements before we start. Could you please describe what you need this project to accomplish? What are the key features and goals?", Agent)

  const ThankForRequirements := MessageAction("Thank you! I have created a task to gather your requirements.", Agent)

  const RequirementsFinish := AgentFinishAction("Requirements gathering initiated", Some(CompletedTrue))

  const PlanningAnnouncement :=
    MessageAction("Requirements have been documented. Now moving to the planning phase where we'll define the project scope and roadmap.", Agent)

  const ExitFinish := AgentFinishAction("User requested exit", Some(CompletedTrue))

  const TaskCompletedFinish := AgentFinishAction("Task completed", Some(CompletedTrue))

  /** The words of an LLM reply that end the task. */
  const FinishKeywords := ["complete", "finished", "done", "/exit"]

  // ---------------------------------------------------------------------------
  // Phase inference (`_get_current_phase`)
  // ---------------------------------------------------------------------------

  /** A message whose lowercased content carries a phase marker. */
  predicate IsMarkerMessage(e: Event) {
    IsMessage(e) && Contains(Lower(e.action.content), PhaseMarker)
  }

  /** The phase a marker message names: the lowercased text after the first `phase:`
      and before the next one, stripped, cut at the first newline, stripped again. */
  function MarkerPhase(content: string): (p: string)
    requires Contains(Lower(content), PhaseMarker)
    ensures !Contains(p, "\n")
    ensures Trimmed(p)
    ensures LowerCase(p)
    ensures !Contains(p, PhaseMarker)
  {
    var low := Lower(content);
    var part := SecondPart(low, PhaseMarker);
    var s1 := Strip(part);
    var line := CutAt(s1, "\n");
    assert Contains(s1, line) by { assert OccursAt(s1, line, 0); }
    var p := Strip(line);
    CutChainShape(low, part, s1, line, p);
    p
  }

  /** The phase named by the most recent marker message, if any. */
  function LastMarker(history: seq<Event>): (r: Option<string>)
    ensures r.None? <==> forall j :: 0 <= j < |history| ==> !IsMarkerMessage(history[j])
  {
    match LastIndexWhere(history, IsMarkerMessage)
    case None => None
    case Some(i) => Some(MarkerPhase(history[i].action.content))
  }

  /** Some task's phase contains `word`, ignoring case. */
  predicate AnyPhaseContains(tasks: set<Task>, word: string) {
    exists t :: t in tasks && Contains(Lower(t.phase), word)
  }

  /** The position, in the search order, of the first phase that some task's phase contains,
      looking from position `k` on; `|RankedPhases|` when there is none. */
  function FirstRanked(tasks: set<Task>, k: nat): (r: nat)
    requires k <= |RankedPhases|
    ensures k <= r <= |RankedPhases|
    ensures r < |RankedPhases| ==> AnyPhaseContains(tasks, RankedPhases[r])
    ensures forall j :: k <= j < r ==> !AnyPhaseContains(tasks, RankedPhases[j])
    decreases |RankedPhases| - k
  {
    if k == |RankedPhases| then k
    else if AnyPhaseContains(tasks, RankedPhases[k]) then k
    else FirstRanked(tasks, k + 1)
  }

  /** The phase the backlog is in, when no marker decides: nothing recorded means
      requirements gathering; otherwise the most advanced phase that some task's phase
      contains, or the first default phase when none does. */
  function BacklogPhase(tasks: set<Task>): (p: string)
    ensures p in DefaultPhases
    ensures tasks == {} ==> p == RequirementsGathering
  {
    if tasks == {} then RequirementsGathering
    else
      var k := FirstRanked(tasks, 0);
      if k < |RankedPhases| then
        assert RankedPhases[k] == DefaultPhases[|RankedPhases| - k];
        RankedPhases[k]
      else DefaultPhases[0]
  }

  /** `_get_current_phase`: a marker in the conversation wins; otherwise the backlog decides. */
  function CurrentPhase(history: seq<Event>, tasks: set<Task>): (p: string)
    ensures LastMarker(history).None? ==> p in DefaultPhases
    ensures LastMarker(history).Some? ==> Trimmed(p) && LowerCase(p) && !Contains(p, "\n")
  {
    match LastMarker(history)
    case Some(p) => p
    case None => BacklogPhase(tasks)
  }

  /** The position of a phase in the search order: 0 for the most advanced,
      `|RankedPhases|` for any phase outside it. */
  function Rank(p: string): (r: nat)
    ensures r <= |RankedPhases|
  {
    RankFrom(p, 0)
  }

  function RankFrom(p: string, k: nat): (r: nat)
    requires k <= |RankedPhases|
    ensures k <= r <= |RankedPhases|
    decreases |RankedPhases| - k
  {
    if k == |RankedPhases| then k
    else if RankedPhases[k] == p then k
    else RankFrom(p, k + 1)
  }

  /** The searched phases differ from each other and from the default. */
  lemma {:induction false} RankedDistinct(i: nat, j: nat)
    requires i < |RankedPhases| && j < |RankedPhases|
    ensures RankedPhases[i] == RankedPhases[j] <==> i == j
    ensures RankedPhases[i] != RequirementsGathering
  {
    var lengths := [10, 7, 11, 12, 8];
    assert |RankedPhases[0]| == lengths[0] && |RankedPhases[1]| == lengths[1];
    assert |RankedPhases[2]| == lengths[2] && |RankedPhases[3]| == lengths[3];
    assert |RankedPhases[4]| == lengths[4];
    if i != j {
      assert |RankedPhases[i]| != |RankedPhases[j]|;
    }
  }

  /** The rank of the `k`-th searched phase is `k`. */
  lemma {:induction false} RankOfRanked(k: nat, from: nat)
    requires from <= k < |RankedPhases|
    ensures RankFrom(RankedPhases[k], from) == k
    decreases k - from
  {
    RankedDistinct(from, k);
    if from < k {
      RankOfRanked(k, from + 1);
    }
  }

  /** The default phase ranks after every searched phase. */
  lemma {:induction false} RankOfDefault(from: nat)
    requires from <= |RankedPhases|
    ensures RankFrom(RequirementsGathering, from) == |RankedPhases|
    decreases |RankedPhases| - from
  {
    if from < |RankedPhases| {
      RankedDistinct(from, from);
      RankOfDefault(from + 1);
    }
  }

  /** The rank of the backlog phase is the position the search stops at. */
  lemma {:induction false} RankOfBacklogPhase(tasks: set<Task>)
    ensures Rank(BacklogPhase(tasks)) == if tasks == {} then |RankedPhases| else FirstRanked(tasks, 0)
  {
    if tasks != {} && FirstRanked(tasks, 0) < |RankedPhases| {
      RankOfRanked(FirstRanked(tasks, 0), 0);
    } else {
      RankOfDefault(0);
    }
  }

  /** The search from `k` stops at `m` exactly when the `m`-th phase occurs and none
      between `k` and `m` does. */
  lemma {:induction false} FirstRankedStops(tasks: set<Task>, k: nat, m: nat)
    requires k <= m <= |RankedPhases|
    ensures FirstRanked(tasks, k) == m <==>
              (m == |RankedPhases| || AnyPhaseContains(tasks, RankedPhases[m]))
              && forall j :: k <= j < m ==> !AnyPhaseContains(tasks, RankedPhases[j])
    decreases |RankedPhases| - k
  {
    if k < m {
      FirstRankedStops(tasks, k + 1, m);
    }
  }

  /** A search over more tasks stops no later. */
  lemma {:induction false} FirstRankedMonotone(tasks: set<Task>, more: set<Task>, k: nat)
    requires tasks <= more && k <= |RankedPhases|
    ensures FirstRanked(more, k) <= FirstRanked(tasks, k)
    decreases |RankedPhases| - k
  {
    if k < |RankedPhases| {
      if AnyPhaseContains(tasks, RankedPhases[k]) {
        var t :| t in tasks && Contains(Lower(t.phase), RankedPhases[k]);
        assert t in more;
      }
      FirstRankedMonotone(tasks, more, k + 1);
    }
  }

  /** The pieces cut one out of the other, from a lowercased message down to the phase. */
  lemma {:induction false} CutChainShape(low: string, part: string, s1: string, line: string, p: string)
    requires LowerCase(low)
    requires Contains(low, part) && !Contains(part, PhaseMarker)
    requires Contains(part, s1) && Contains(s1, line) && Contains(line, p)
    requires !Contains(line, "\n")
    ensures !Contains(p, "\n") && !Contains(p, PhaseMarker)
    ensures LowerCase(p)
  {
    SubstringKeepsAbsence(line, p, "\n");
    // `part` stops before the next marker, and so does everything cut out of it.
    SubstringKeepsAbsence(part, s1, PhaseMarker);
    SubstringKeepsAbsence(s1, line, PhaseMarker);
    SubstringKeepsAbsence(line, p, PhaseMarker);
    // Every piece is cut out of the lowercased message.
    ContainsTransitive(low, part, s1);
    ContainsTransitive(low, s1, line);
    ContainsTransitive(low, line, p);
    NoUpperInSubstring(low, p);
  }

  /** A string that does not contain `pat` has no substring that does. */
  lemma {:induction false} SubstringKeepsAbsence(s: string, sub: string, pat: string)
    requires !Contains(s, pat) && Contains(s, sub)
    ensures !Contains(sub, pat)
  {
    if Contains(sub, pat) {
      ContainsTransitive(s, sub, pat);
    }
  }

  /** A marker decides the phase whatever the backlog holds: it is the phase named by
      the latest message that carries one. */
  lemma {:induction false} MarkerWins(history: seq<Event>, tasks: set<Task>, i: nat)
    requires i < |history| && IsMarkerMessage(history[i])
    requires forall j :: i < j < |history| ==> !IsMarkerMessage(history[j])
    ensures CurrentPhase(history, tasks) == MarkerPhase(history[i].action.content)
  {
    var r := LastIndexWhere(history, IsMarkerMessage);
    assert r.Some?;
    assert r.value == i;
  }

  /** Without a marker, the result is the first phase of the search order that occurs in
      some task's phase, or `requirements_gathering` when the backlog is empty or none does. */
  lemma {:induction false} BacklogPhaseIsFirstRanked(history: seq<Event>, tasks: set<Task>, k: nat)
    requires forall j :: 0 <= j < |history| ==> !IsMarkerMessage(history[j])
    requires k < |RankedPhases|
    ensures CurrentPhase(history, tasks) == RankedPhases[k] <==>
              tasks != {} && AnyPhaseContains(tasks, RankedPhases[k])
              && forall j :: 0 <= j < k ==> !AnyPhaseContains(tasks, RankedPhases[j])
    ensures CurrentPhase(history, tasks) == RequirementsGathering <==>
              tasks == {} || forall j :: 0 <= j < |RankedPhases| ==> !AnyPhaseContains(tasks, RankedPhases[j])
  {
    assert LastIndexWhere(history, IsMarkerMessage).None?;
    assert CurrentPhase(history, tasks) == BacklogPhase(tasks);
    RankedDistinct(k, k);
    FirstRankedStops(tasks, 0, k);
    FirstRankedStops(tasks, 0, |RankedPhases|);
    if tasks != {} && FirstRanked(tasks, 0) < |RankedPhases| {
      RankedDistinct(FirstRanked(tasks, 0), k);
      RankedDistinct(FirstRanked(tasks, 0), FirstRanked(tasks, 0));
    }
  }

  /** Recording more tasks never moves the backlog phase back in the search order. */
  lemma {:induction false} BacklogPhaseMonotone(tasks: set<Task>, more: set<Task>)
    requires tasks <= more
    ensures Rank(BacklogPhase(more)) <= Rank(BacklogPhase(tasks))
  {
    RankOfBacklogPhase(tasks);
    RankOfBacklogPhase(more);
    if tasks != {} {
      FirstRankedMonotone(tasks, more, 0);
    }
  }

  // ---------------------------------------------------------------------------
  // Searches over the history
  // ---------------------------------------------------------------------------

  /** `_get_initial_user_message`: the first message of the history, whatever its source. */
  function InitialMessage(history: seq<Event>): (r: Result<Action>)
    ensures r.Ok? <==> exists i :: 0 <= i < |history| && IsMessage(history[i])
    ensures r.Ok? ==> exists i :: 0 <= i < |history| && IsMessage(history[i]) && r.value == history[i].action
                        && forall j :: 0 <= j < i ==> !IsMessage(history[j])
    ensures r.Err? ==> r.error.ValueError?
  {
    match FirstIndexWhere(history, IsMessage)
    case None => Err(ValueError("Initial user message not found in history. Please report this issue."))
    case Some(i) => Ok(history[i].action)
  }

  /** The contents of the user's messages, oldest first. */
  function UserMessages(history: seq<Event>): (r: seq<string>)
    ensures |r| <= |history|
    ensures r == [] <==> forall i :: 0 <= i < |history| ==> !IsUserMessage(history[i])
    ensures forall m :: m in r <==>
              exists i :: 0 <= i < |history| && IsUserMessage(history[i]) && history[i].action.content == m
  {
    if history == [] then []
    else
      var rest := UserMessages(history[..|history| - 1]);
      var e := history[|history| - 1];
      if IsUserMessage(e) then rest + [e.action.content] else rest
  }

  /** The last user message is the content of the latest user message of the history. */
  lemma {:induction false} LastUserMessageIsLatest(history: seq<Event>, i: nat)
    requires i < |history| && IsUserMessage(history[i])
    requires forall j :: i < j < |history| ==> !IsUserMessage(history[j])
    ensures var um := UserMessages(history); um != [] && um[|um| - 1] == history[i].action.content
  {
    if i < |history| - 1 {
      LastUserMessageIsLatest(history[..|history| - 1], i);
    } else {
    }
  }

  /** Some recorded task is in the requirements phase (the phase compared whole, ignoring case). */
  predicate HasRequirementsTask(tasks: set<Task>) {
    exists t :: t in tasks && Lower(t.phase) == RequirementsGathering
  }

  /** No requirements have been given yet: there is no user message, or the last one does not
      mention them. */
  predicate NeedsRequirements(history: seq<Event>) {
    var um := UserMessages(history);
    um == [] || !Contains(Lower(um[|um| - 1]), "requirements")
  }

  /** The reply names one of the finish keywords, ignoring case. */
  predicate HasFinishKeyword(content: string) {
    exists k :: 0 <= k < |FinishKeywords| && Contains(Lower(content), FinishKeywords[k])
  }

  /** The action `response_to_actions` makes of an LLM reply. */
  function ResponseAction(content: string): (a: Action)
    ensures a.AgentFinishAction? <==> HasFinishKeyword(content)
    ensures a.AgentFinishAction? ==> a == AgentFinishAction("Task completed", Some(CompletedTrue))
    ensures !HasFinishKeyword(content) ==> a == MessageAction(content, Agent)
  {
    if HasFinishKeyword(content) then TaskCompletedFinish else MessageAction(content, Agent)
  }

  /** `_handle_requirements_gathering` on a backlog whose files were `files` and a queue that
      was `queue`: the action returned, the queue left and the files written. */
  ghost predicate GatheringOutcome(files: map<string, Entry>, tasks: set<Task>, queue: seq<Action>,
                                   history: seq<Event>,
                                   a: Action, queue': seq<Action>, files': map<string, Entry>)
  {
    if HasRequirementsTask(tasks) then
      && files' == files[SafeTitle(GatherRequirementsTitle) := Decoded(GatherRequirementsTask)]
                        [SafeTitle(ProjectPlanTitle) := Decoded(ProjectPlanTask)]
      && [a] + queue' == queue + [PlanningAnnouncement]
    else
      && files' == files[SafeTitle(GatherRequirementsTitle) := Decoded(GatherRequirementsTask)]
      && if NeedsRequirements(history) then [a] + queue' == queue + [AskForRequirements]
         else [a] + queue' == queue + [ThankForRequirements, RequirementsFinish]
  }

  class RDTeamAgent {
    var pendingActions: seq<Action>
    /** The backlog directory the agent's `BacklogTool` calls read and write. */
    const backlog: BacklogStore

    ghost predicate Valid()
      reads this, backlog
    {
      backlog.Valid()
    }

    constructor (backlog: BacklogStore)
      requires backlog.Valid()
      ensures Valid() && pendingActions == [] && this.backlog == backlog
    {
      pendingActions := [];
      this.backlog := backlog;
    }

    /** `reset`: only the pending actions are cleared. */
    method Reset()
      modifies this
      ensures pendingActions == []
    {
      pendingActions := [];
    }

    /** `step`. `llmReply` is the content of the LLM's completion, used only when neither the
        queue, an exit request nor the requirements phase decides the step. */
    method Step(state: AgentState, llmReply: string) returns (r: Result<Action>)
      requires Valid()
      modifies this, backlog
      ensures Valid()
      ensures old(pendingActions) != [] ==>
                && r == Ok(old(pendingActions)[0])
                && pendingActions == old(pendingActions)[1..]
                && backlog.files == old(backlog.files) && backlog.present == old(backlog.present)
      ensures old(pendingActions) == [] && IsExitRequest(state) ==>
                && r == Ok(ExitFinish) && pendingActions == []
                && backlog.files == old(backlog.files) && backlog.present == old(backlog.present)
      ensures old(pendingActions) == [] && !IsExitRequest(state)
              && CurrentPhase(state.history, old(backlog.DecodedTasks())) == RequirementsGathering ==>
                && r.Ok? && backlog.present
                && GatheringOutcome(old(backlog.files), old(backlog.DecodedTasks()), [], state.history,
                                    r.value, pendingActions, backlog.files)
      ensures old(pendingActions) == [] && !IsExitRequest(state)
              && CurrentPhase(state.history, old(backlog.DecodedTasks())) != RequirementsGathering ==>
                && backlog.files == old(backlog.files) && backlog.present == old(backlog.present)
                && pendingActions == []
                && (InitialMessage(state.history).Err? ==> r == Err(InitialMessage(state.history).error))
                && (InitialMessage(state.history).Ok? ==> r == Ok(ResponseAction(llmReply)))
    {
      if pendingActions != [] {
        r := Ok(pendingActions[0]);
        pendingActions := pendingActions[1..];
      } else if IsExitRequest(state) {
        r := Ok(ExitFinish);
      } else {
        var phase := ReadPhase(state.history);
        if phase == RequirementsGathering {
          var a := HandleRequirementsGathering(state);
          r := Ok(a);
        } else {
          match InitialMessage(state.history)
          case Err(e) =>
            r := Err(e);
          case Ok(_) =>
            var a := ResponseToActions(llmReply);
            assert |pendingActions| == 0;
            assert a == ([a] + pendingActions)[0];
            r := Ok(a);
        }
      }
    }

    /** `_get_current_phase` over the records the backlog holds. */
    method ReadPhase(history: seq<Event>) returns (phase: string)
      requires Valid()
      ensures phase == CurrentPhase(history, backlog.DecodedTasks())
    {
      ghost var decoded := backlog.DecodedTasks();
      var tasks, order := backlog.GetBacklogTasks();
      var seen := set t | t in tasks;
      assert seen == decoded;
      phase := CurrentPhase(history, seen);
    }

    /** `_handle_requirements_gathering`. */
    method HandleRequirementsGathering(state: AgentState) returns (a: Action)
      requires Valid()
      modifies this, backlog
      ensures Valid() && backlog.present
      ensures GatheringOutcome(old(backlog.files), old(backlog.DecodedTasks()), old(pendingActions),
                               state.history, a, pendingActions, backlog.files)
    {
      ghost var recorded := backlog.DecodedTasks();
      backlog.EnsureDirectory();
      var allTasks, order := backlog.GetBacklogTasks();
      var seen := set t | t in allTasks;
      assert seen == recorded;
      if HasRequirementsTask(seen) {
        a := AdvanceToPlanningPhase();
      } else {
        RecordRequirementsTask();
        if NeedsRequirements(state.history) {
          a := QueueAndPop([AskForRequirements]);
        } else {
          // The same record is written a second time before the reply is queued.
          RecordRequirementsTask();
          a := QueueAndPop([ThankForRequirements, RequirementsFinish]);
        }
      }
    }

    /** The "Gather Requirements" record that `_handle_requirements_gathering` writes. */
    method RecordRequirementsTask()
      requires Valid()
      modifies backlog
      ensures Valid() && backlog.present
      ensures backlog.files == old(backlog.files)[SafeTitle(GatherRequirementsTitle) := Decoded(GatherRequirementsTask)]
    {
      var _ := backlog.CreateBacklogTask(GatherRequirementsTitle, GatherRequirementsTask.description,
                                         RequirementsGathering, DefaultStatus,
                                         Some(GatherRequirementsTask.acceptanceCriteria));
    }

    /** `pending_actions.extend(actions)` followed by `popleft()`. */
    method QueueAndPop(actions: seq<Action>) returns (a: Action)
      requires actions != []
      modifies this
      ensures [a] + pendingActions == old(pendingActions) + actions
    {
      pendingActions := pendingActions + actions;
      a := pendingActions[0];
      pendingActions := pendingActions[1..];
    }

    /** `_advance_to_planning_phase`. */
    method AdvanceToPlanningPhase() returns (a: Action)
      requires Valid()
      modifies this, backlog
      ensures Valid() && backlog.present
      ensures backlog.files == old(backlog.files)[SafeTitle(GatherRequirementsTitle) := Decoded(GatherRequirementsTask)]
                                                 [SafeTitle(ProjectPlanTitle) := Decoded(ProjectPlanTask)]
      ensures [a] + pendingActions == old(pendingActions) + [PlanningAnnouncement]
    {
      RecordRequirementsTask();
      var _ := backlog.CreateBacklogTask(ProjectPlanTitle, ProjectPlanTask.description, "planning",
                                         DefaultStatus, Some(ProjectPlanTask.acceptanceCriteria));
      a := QueueAndPop([PlanningAnnouncement]);
    }

    /** `response_to_actions`: one action is queued and the front of the queue returned. */
    method ResponseToActions(content: string) returns (a: Action)
      modifies this
      ensures [a] + pendingActions == old(pendingActions) + [ResponseAction(content)]
      ensures |pendingActions| == |old(pendingActions)|
    {
      if HasFinishKeyword(content) {
        pendingActions := pendingActions + [TaskCompletedFinish];
      } else {
        pendingActions := pendingActions + [MessageAction(content, Agent)];
      }
      a := pendingActions[0];
      pendingActions := pendingActions[1..];
    }
  }
}

=== FILE: text.dfy ===
/**
 * The few Python `str` operations the modelled routines decide on:
 * `lower`, `strip`, `in`, `split(sep)[1]`, `split('\n')[0]`, `replace`
 * and `rstrip('/')`, and `str` of a natural number.
 */
module Text {
  import opened Common

  /** `str.lower` on one character, for the ASCII letters. */
  function LowerChar(c: char): char {
    if 'A' <= c <= 'Z' then (c as int + 32) as char else c
  }

  predicate IsUpper(c: char) {
    'A' <= c <= 'Z'
  }

  /** No character of `s` is an upper-case letter. */
  predicate LowerCase(s: string) {
    forall i :: 0 <= i < |s| ==> !IsUpper(s[i])
  }

  /** `str.lower`, for the ASCII letters. */
  function Lower(s: string): (r: string)
    ensures |r| == |s|
    ensures LowerCase(r)
    ensures forall i :: 0 <= i < |s| && !IsUpper(s[i]) ==> r[i] == s[i]
    ensures forall i :: 0 <= i < |s| && IsUpper(s[i]) ==> r[i] == (s[i] as int + 32) as char
  {
    seq(|s|, i requires 0 <= i < |s| => LowerChar(s[i]))
  }

  /** The characters for which Python's `str.isspace` holds, i.e. what `strip()` removes. */
  predicate IsSpace(c: char) {
    var n := c as int;
    (9 <= n <= 13) || (28 <= n <= 32) || n == 0x85 || n == 0xA0 || n == 0x1680
    || (0x2000 <= n <= 0x200A) || n == 0x2028 || n == 0x2029 || n == 0x202F
    || n == 0x205F || n == 0x3000
  }

  /** `str.lstrip()`. */
  function TrimLeft(s: string): (r: string)
    ensures |r| <= |s| && r == s[|s| - |r|..]
    ensures forall i :: 0 <= i < |s| - |r| ==> IsSpace(s[i])
    ensures r != [] ==> !IsSpace(r[0])
  {
    if s != [] && IsSpace(s[0]) then TrimLeft(s[1..]) else s
  }

  /** `str.rstrip()`. */
  function TrimRight(s: string): (r: string)
    ensures |r| <= |s| && r == s[..|r|]
    ensures forall i :: |r| <= i < |s| ==> IsSpace(s[i])
    ensures r != [] ==> !IsSpace(r[|r| - 1])
  {
    if s != [] && IsSpace(s[|s| - 1]) then TrimRight(s[..|s| - 1]) else s
  }

  /** Neither starts nor ends with whitespace. */
  predicate Trimmed(s: string) {
    s == [] || (!IsSpace(s[0]) && !IsSpace(s[|s| - 1]))
  }

  /** `r` is `s` with `a` characters of whitespace cut from its front and the rest of
      its characters after `r`, all whitespace, cut from its end. */
  predicate SpaceAround(s: string, r: string, a: nat) {
    && OccursAt(s, r, a)
    && (forall i :: 0 <= i < a ==> IsSpace(s[i]))
    && (forall i :: a + |r| <= i < |s| ==> IsSpace(s[i]))
  }

  /** `str.strip()`: the longest slice of `s` that neither starts nor ends with whitespace. */
  function Strip(s: string): (r: string)
    ensures Trimmed(r)
    ensures exists a: nat :: SpaceAround(s, r, a)
    ensures Contains(s, r)
    ensures (forall i :: 0 <= i < |s| ==> IsSpace(s[i])) ==> r == []
  {
    StripEnds(s);
    StripOccurs(s);
    StripAllSpace(s);
    TrimRight(TrimLeft(s))
  }

  lemma {:induction false} StripEnds(s: string)
    ensures Trimmed(TrimRight(TrimLeft(s)))
  {
    var l := TrimLeft(s);
    var r := TrimRight(l);
    if r != [] {
      assert r[0] == l[0];
    }
  }

  lemma {:induction false} StripOccurs(s: string)
    ensures SpaceAround(s, TrimRight(TrimLeft(s)), |s| - |TrimLeft(s)|)
    ensures Contains(s, TrimRight(TrimLeft(s)))
  {
    var l := TrimLeft(s);
    var r := TrimRight(l);
    var a := |s| - |l|;
    forall k | 0 <= k < |r| ensures r[k] == s[a + k] {
      assert r[k] == l[k] == s[a + k];
    }
    assert s[a..a + |r|] == r;
    assert OccursAt(s, r, a);
    forall i | a + |r| <= i < |s| ensures IsSpace(s[i]) {
      assert s[i] == l[i - a];
    }
  }

  lemma {:induction false} StripAllSpace(s: string)
    ensures (forall i :: 0 <= i < |s| ==> IsSpace(s[i])) ==> TrimRight(TrimLeft(s)) == []
  {
  }

  /** `pat` occurs in `s` at index `i`. */
  predicate OccursAt(s: string, pat: string, i: nat) {
    i + |pat| <= |s| && s[i..i + |pat|] == pat
  }

  /** Python's `pat in s`. */
  predicate Contains(s: string, pat: string) {
    exists i: nat | i <= |s| :: OccursAt(s, pat, i)
  }

  /** The first index at or after `from` where `pat` occurs in `s` (`str.find` with a start). */
  function FindFrom(s: string, pat: string, from: nat): (r: Option<nat>)
    decreases |s| - from
    ensures r.Some? ==> from <= r.value && OccursAt(s, pat, r.value)
    ensures r.Some? ==> forall j: nat :: from <= j < r.value ==> !OccursAt(s, pat, j)
    ensures r.None? ==> forall j: nat :: from <= j ==> !OccursAt(s, pat, j)
  {
    if from + |pat| > |s| then None
    else if s[from..from + |pat|] == pat then Some(from)
    else FindFrom(s, pat, from + 1)
  }

  /** The index of the first occurrence of `pat` in `s`. */
  function Find(s: string, pat: string): (r: Option<nat>)
    ensures r.Some? <==> Contains(s, pat)
    ensures r.Some? ==> OccursAt(s, pat, r.value)
    ensures r.Some? ==> forall j: nat :: j < r.value ==> !OccursAt(s, pat, j)
  {
    FindFrom(s, pat, 0)
  }

  /** `s.split(sep)[1]` for a non-empty `sep` that occurs in `s`: the text between the
      first and the second occurrence of `sep`, or up to the end when there is no second. */
  function SecondPart(s: string, sep: string): (r: string)
    requires sep != [] && Contains(s, sep)
    ensures !Contains(r, sep)
    ensures PartBetween(s, sep, Find(s, sep).value, r)
    ensures Contains(s, sep + r)
    ensures Contains(s, r)
  {
    var i := Find(s, sep).value;
    var rest := s[i + |sep|..];
    var r := CutAt(rest, sep);
    PartAfter(s, sep, i, rest, r);
    r
  }

  /** `r` follows the occurrence of `sep` at `i` and runs up to the next occurrence of `sep`,
      or to the end of `s` when there is none. */
  predicate PartBetween(s: string, sep: string, i: nat, r: string) {
    && OccursAt(s, sep + r, i)
    && (i + |sep| + |r| == |s| || OccursAt(s, sep, i + |sep| + |r|))
    && forall j: nat :: i + |sep| <= j < i + |sep| + |r| ==> !OccursAt(s, sep, j)
  }

  /** What follows an occurrence of `sep` at `i`: a prefix `r` of the rest in which no `sep`
      starts, and after which the rest ends or `sep` occurs. */
  lemma {:induction false} PartAfter(s: string, sep: string, i: nat, rest: string, r: string)
    requires OccursAt(s, sep, i) && rest == s[i + |sep|..]
    requires |r| <= |rest| && r == rest[..|r|]
    requires |r| == |rest| || OccursAt(rest, sep, |r|)
    requires forall k: nat :: k < |r| ==> !OccursAt(rest, sep, k)
    ensures PartBetween(s, sep, i, r)
    ensures Contains(s, sep + r) && Contains(s, r)
  {
    assert s[i..i + |sep| + |r|] == s[i..i + |sep|] + rest[..|r|];
    assert s[i + |sep|..i + |sep| + |r|] == rest[..|r|];
    ShiftOccurs(s, i + |sep|, sep, |r|);
    NoOccurrenceBeforeCut(s, sep, i + |sep|, r);
    assert OccursAt(s, sep + r, i) && OccursAt(s, r, i + |sep|);
  }

  /** No `sep` starts in `s` inside a part after `from` in which none starts in the suffix. */
  lemma {:induction false} NoOccurrenceBeforeCut(s: string, sep: string, from: nat, r: string)
    requires from <= |s| && |r| <= |s| - from
    requires forall k: nat :: k < |r| ==> !OccursAt(s[from..], sep, k)
    ensures forall j: nat :: from <= j < from + |r| ==> !OccursAt(s, sep, j)
  {
    forall j: nat | from <= j < from + |r| ensures !OccursAt(s, sep, j) {
      ShiftOccurs(s, from, sep, j - from);
    }
  }

  /** An occurrence in a suffix is an occurrence in the whole string, shifted. */
  lemma {:induction false} ShiftOccurs(s: string, from: nat, pat: string, k: nat)
    requires from <= |s|
    ensures OccursAt(s[from..], pat, k) <==> OccursAt(s, pat, from + k)
  {
    if from + k + |pat| <= |s| {
      assert s[from..][k..k + |pat|] == s[from + k..from + k + |pat|];
    }
  }

  /** `s.split(sep)[0]`: the text before the first occurrence of `sep`, or all of `s`. */
  function CutAt(s: string, sep: string): (r: string)
    requires sep != []
    ensures |r| <= |s| && r == s[..|r|]
    ensures !Contains(r, sep)
    ensures Contains(s, sep) ==> OccursAt(s, sep, |r|)
    ensures Contains(s, sep) ==> |r| == Find(s, sep).value
    ensures forall k: nat :: k < |r| ==> !OccursAt(s, sep, k)
    ensures !Contains(s, sep) ==> r == s
  {
    match Find(s, sep)
    case None => s
    case Some(j) =>
      var r := s[..j];
      assert !Contains(r, sep) by {
        forall k: nat | OccursAt(r, sep, k) ensures false {
          assert OccursAt(s, sep, k) by { assert s[k..k + |sep|] == r[k..k + |sep|]; }
        }
      }
      r
  }

  /** `s.replace(from, to)` for single characters. */
  function Replace(s: string, from: char, to: char): (r: string)
    ensures |r| == |s|
    ensures forall i :: 0 <= i < |s| ==> r[i] == if s[i] == from then to else s[i]
  {
    seq(|s|, i requires 0 <= i < |s| => if s[i] == from then to else s[i])
  }

  /** `s.rstrip(c)`. */
  function RStripChar(s: string, c: char): (r: string)
    ensures |r| <= |s| && r == s[..|r|]
    ensures r == [] || r[|r| - 1] != c
    ensures forall i :: |r| <= i < |s| ==> s[i] == c
  {
    if s != [] && s[|s| - 1] == c then RStripChar(s[..|s| - 1], c) else s
  }

  /** `str(n)` for a natural number: its decimal digits, without leading zeros. */
  function NatToString(n: nat): (r: string)
    ensures r != []
    ensures IsDigits(r)
    ensures DigitsValue(r) == n
    ensures n == 0 || r[0] != '0'
    decreases n
  {
    var digit := ('0' as int + n % 10) as char;
    if n < 10 then [digit]
    else
      var p := NatToString(n / 10);
      assert (p + [digit])[..|p|] == p;
      p + [digit]
  }

  predicate IsDigits(s: string) {
    forall i :: 0 <= i < |s| ==> '0' <= s[i] <= '9'
  }

  /** The number a string of decimal digits denotes, read most significant digit first. */
  function DigitsValue(s: string): nat
    requires IsDigits(s)
  {
    if s == [] then 0
    else DigitsValue(s[..|s| - 1]) * 10 + (s[|s| - 1] as int - '0' as int)
  }

  /** A digit string that does not start with a zero denotes a positive number. */
  lemma {:induction false} LeadingDigitPositive(s: string)
    requires s != [] && IsDigits(s) && s[0] != '0'
    ensures DigitsValue(s) > 0
  {
    if |s| > 1 {
      LeadingDigitPositive(s[..|s| - 1]);
    }
  }

  /** Reading a digit string with no leading zero and printing the number gives it back. */
  lemma {:induction false} NatToStringOfDigits(s: string)
    requires s != [] && IsDigits(s) && (|s| == 1 || s[0] != '0')
    ensures NatToString(DigitsValue(s)) == s
  {
    if |s| > 1 {
      var p := s[..|s| - 1];
      LeadingDigitPositive(p);
      NatToStringOfDigits(p);
      var n := DigitsValue(s);
      assert n / 10 == DigitsValue(p) && n % 10 == s[|s| - 1] as int - '0' as int;
      assert s == p + [s[|s| - 1]];
    }
  }

  /** A substring of a substring of `a` is a substring of `a`. */
  lemma {:induction false} ContainsTransitive(a: string, b: string, c: string)
    requires Contains(a, b) && Contains(b, c)
    ensures Contains(a, c)
  {
    var i: nat :| i <= |a| && OccursAt(a, b, i);
    var j: nat :| j <= |b| && OccursAt(b, c, j);
    forall k | 0 <= k < |c| ensures a[i + j + k] == c[k] {
      assert c[k] == b[j..j + |c|][k] == b[j + k];
      assert b[j + k] == a[i..i + |b|][j + k] == a[i + j + k];
    }
    assert a[i + j..i + j + |c|] == c;
    assert OccursAt(a, c, i + j);
  }

  /** A substring of a string without upper-case letters has none either. */
  lemma {:induction false} NoUpperInSubstring(s: string, sub: string)
    requires LowerCase(s) && Contains(s, sub)
    ensures LowerCase(sub)
  {
    var a: nat :| a <= |s| && OccursAt(s, sub, a);
    forall i | 0 <= i < |sub| ensures !IsUpper(sub[i]) {
      assert sub[i] == s[a..a + |sub|][i] == s[a + i];
    }
  }

  /** Stripping twice is stripping once. */
  lemma {:induction false} StripIdempotent(s: string)
    ensures Strip(Strip(s)) == Strip(s)
  {
    var r := Strip(s);
    StripKeepsClean(r);
  }

  /** A string that neither starts nor ends with whitespace is left as it is by `strip()`. */
  lemma {:induction false} StripKeepsClean(s: string)
    requires Trimmed(s)
    ensures Strip(s) == s
  {
    assert TrimLeft(s) == s;
    assert TrimRight(s) == s;
  }
}

=== FILE: validate_docs.dfy ===
/**
 * `DocumentationValidatorAction.run`: a stub that reports every documentation
 * set as complete, whatever it is given.
 */
module ValidateDocs {

  /** The JSON values the report holds. */
  datatype JsonValue = JString(s: string) | JList(items: seq<JsonValue>)

  const StatusKey := "status"
  const BrokenLinksKey := "broken_links"
  const MissingKey := "missing"
  const WarningsKey := "warnings"

  /** `run`: the validation report for `input`, a path to the documentation. */
  function Run(input: string): (report: map<string, JsonValue>)
    ensures report.Keys == {StatusKey, BrokenLinksKey, MissingKey, WarningsKey}
    ensures report[StatusKey] == JString("complete")
    ensures report[BrokenLinksKey] == JList([]) && report[MissingKey] == JList([]) && report[WarningsKey] == JList([])
  {
    map[StatusKey := JString("complete"), BrokenLinksKey := JList([]), MissingKey := JList([]), WarningsKey := JList([])]
  }

  /** The report does not depend on the input, so validating twice gives the same report. */
  lemma {:induction false} RunIgnoresInput(a: string, b: string)
    ensures Run(a) == Run(b)
  {
  }
}
